=== FILE: README.md ===
# Resume screener matching engine, modelled in Dafny

This project models the matching and ranking core of the resume-screener
backend. That core is the code that decides which candidate profiles match
a recruiter's search or a job posting, and in what order. The model covers
three pieces of code:

- **Multi-criteria search** (`SearchHandler.search_candidates`). A candidate
  is scored on skills, location and experience, with weights 0.6 / 0.2 / 0.2.
  Skills and location count only when the query and the profile both
  supply their data. Experience counts whenever a non-zero experience is
  required, unless the profile's experience column is the empty-string
  sentinel; a null column still counts, with sub-score 0. The final score divides the weighted sum by the weight actually
  applied, so it is a weighted mean of the applied sub-scores. Candidates
  below `min_score` are dropped; the rest are sorted best first and cut to
  `limit`. `get_search_summary` then reports the count, the mean, the
  maximum, the minimum and three score buckets.
- **Ranking for a job** (`RankHandler.rank_candidates_for_job`). Skills,
  experience and location are scored with weights 0.4 / 0.3 / 0.1. The
  configured title weight of 0.2 is never applied. The total is the raw
  weighted sum, not a mean, so even a perfect candidate scores 0.8. A
  missing job or an empty candidate table yields no results.
- **Vector search in the candidate store**
  (`search_candidates_by_skills`). This compares each stored resume vector
  with one query vector by the raw cosine, keeps those reaching the
  threshold, and sorts and slices them. Here a vector-length mismatch is not
  caught, so the whole search fails.

The modules follow the program's structure:

| module | file | what it holds |
|---|---|---|
| `Records` | records.dfy | candidate and job rows; Python truthiness of their fields |
| `Numeric` | numeric.dfy | `sum`, `max`, `min`, `np.mean` on lists of reals |
| `Ordering` | ordering.dfy | `sorted(..., reverse=True)[:limit]`: a stable sort plus a slice |
| `Aggregate` | aggregate.dfy | the weighted sum and applied weight over guarded criteria |
| `VectorSimilarity` | vectors.dfy | the three cosine variants and their guards |
| `LocationMatch` | location.dfy | the fuzzy location matcher (split, strip, lower, segment scoring) |
| `Experience` | experience.dfy | the experience step function (identical in both handlers) |
| `Search` | search.dfy | `search_candidates`, `SearchScores`, `get_search_summary` |
| `Rank` | rank.dfy | `rank_candidates_for_job` |
| `CandidateStore` | candidate_store.dfy | `search_candidates_by_skills` |

**The cosine.** The quotient dot(a, b) / (‖a‖·‖b‖) needs a square root, so
every operation takes it as a parameter `cos`. The guards around it are
modelled exactly:

- an empty list is falsy;
- a norm is falsy exactly when every component is zero;
- `np.dot` raises on lists of different lengths.

The ghost predicate `IsCosine(cos)` collects what is known of the true
quotient. On equal-length non-zero vectors it lies in [-1, 1], it is
symmetric, it has the sign of the dot product, and cos(v, v) = 1. Lemmas
that need these facts take `IsCosine(cos)` as a precondition.

**Stable sorting.** Python's `sorted` is stable, and the model states this
through tie classes. `Ties(s, key, k)` is the subsequence of elements whose
key is `k`. The stable descending sort keeps every tie class in input order
(`Ordering.SortDescStable`). Any sorted list with the same tie classes as
the input equals the sort's output (`Ordering.StableSortUnique`).

## Model

Source paths are relative to the repository root.

| member | source | states |
|---|---|---|
| Records.PresentVector | src/services/search_handler.py:142 | Python truthiness of an optional list: present and non-empty |
| Records.PresentText | src/services/search_handler.py:149 | Python truthiness of an optional string: present and non-empty |
| Records.PresentNumber | src/services/search_handler.py:159 | Python truthiness of an optional number: present and non-zero, so a required experience of 0 is falsy |
| Records.PresentExperience | src/services/rank_handler.py:111 | Python truthiness of the experience column: only a non-zero number; null and the blank sentinel are falsy |
| Numeric.Sum | src/services/search_handler.py:86 | Python's `sum` of a list of reals: 0 for the empty list, otherwise the first element plus the sum of the rest |
| Numeric.MaxOf | src/services/search_handler.py:229 | `np.max` of a non-empty list is one of its elements and bounds all of them from above |
| Numeric.MinOf | src/services/search_handler.py:230 | `np.min` of a non-empty list is one of its elements and bounds all of them from below |
| Numeric.Mean | src/services/search_handler.py:228 | `np.mean` of a non-empty list, and `sum(max_similarities) / len(query_parts)` at line 86: the sum divided by the number of elements; its bounds are MeanBetween, MeanAtLeast and MeanAtMost |
| Numeric.MeanBetween | src/services/search_handler.py:228-230 | the summary's mean lies between its minimum and its maximum |
| Numeric.MeanAtLeast | src/services/search_handler.py:86 | a mean of values at least lo is at least lo |
| Numeric.MeanAtMost | src/services/search_handler.py:86 | a mean of values at most hi is at most hi |
| Numeric.MeanAtCeiling | src/services/search_handler.py:86 | a mean of values bounded by hi equals hi exactly when every value is hi |
| Numeric.SumAtCeiling | src/services/search_handler.py:86 | a sum of values bounded by hi reaches n·hi exactly when every value is hi |
| Numeric.SumAtMost | src/services/search_handler.py:86 | a sum of n values at most hi is at most n·hi |
| Numeric.SumAtLeast | src/services/search_handler.py:86 | a sum of n values at least lo is at least n·lo |
| Numeric.SumBelowCeiling | src/services/search_handler.py:86 | one value strictly below hi keeps the sum strictly below n·hi |
| Ordering.Insert | src/services/search_handler.py:185-188 | inserting into a sorted list keeps it sorted and adds exactly that element |
| Ordering.SortDesc | src/services/search_handler.py:185-188 | `sorted(..., reverse=True)` yields a non-increasing permutation of its input |
| Ordering.Prefix | src/services/search_handler.py:189 | `[:limit]` is a prefix of the list, of the length a Python slice gives |
| Ordering.SelectAll | src/services/search_handler.py:185-189 | a limit no smaller than the list keeps every element, as often as the input holds it |
| Ordering.SelectTop | src/services/search_handler.py:185-189 | sort then slice: sorted, drawn from the input without duplication, no dropped element above a kept one, every tie class a prefix of the input's, Python slice length |
| Ordering.SelectedFromInput | src/services/search_handler.py:185-189 | every selected element comes from the input |
| Ordering.SelectedAreBest | src/services/search_handler.py:185-189 | an input element left out never scores above a selected one |
| Ordering.PrefixOfSorted | src/services/search_handler.py:189 | a prefix of a sorted list is sorted and no element it leaves out beats one it keeps |
| Ordering.RemovePrefix | src/services/search_handler.py:189 | what a prefix leaves out of a list is exactly its remainder |
| Ordering.InsertTies | src/services/search_handler.py:185-188 | insertion puts the new element at the front of its own tie class and leaves the others alone |
| Ordering.SortDescStable | src/services/search_handler.py:185-188 | the sort is stable: every tie class keeps its input order |
| Ordering.PrefixTies | src/services/search_handler.py:189 | a prefix keeps a prefix of each tie class |
| Ordering.TiesAboveHeadEmpty | src/services/search_handler.py:185-188 | a sorted list has no element with a key above its head |
| Ordering.SortedWithSameTiesEqual | src/services/search_handler.py:185-188 | two sorted lists with the same tie classes are equal |
| Ordering.StableSortUnique | src/services/search_handler.py:185-188 | every sorted list that keeps the input's tie classes is the sort's output |
| Aggregate.ContributionAtMost | src/services/search_handler.py:139-165 | with applied sub-scores at most hi, the weighted sum is at most hi times the applied weight |
| Aggregate.ContributionAtLeast | src/services/search_handler.py:139-165 | with applied sub-scores at least lo, the weighted sum is at least lo times the applied weight |
| Aggregate.AppliedWeightBounds | src/services/search_handler.py:139-165 | the applied weight lies between 0 and the sum of the configured weights |
| Aggregate.AppliedWeightZero | src/services/search_handler.py:169 | the applied weight is zero exactly when no positively weighted criterion applies |
| Aggregate.WeightedMeanWithin | src/services/search_handler.py:169-170 | a normalised total lies within any interval that holds every applied sub-score |
| Aggregate.RawTotalWithin | src/services/rank_handler.py:94-129 | a raw total of sub-scores in [0, 1] lies between 0 and the sum of the weights |
| Aggregate.AppliedScores | src/services/search_handler.py:142-165 | the list holds exactly the sub-scores of the applied criteria |
| Aggregate.PositiveWeightApplied | src/services/search_handler.py:169 | a non-zero applied weight means some criterion applied |
| Aggregate.WeightedMeanBetween | src/services/search_handler.py:169-170 | the normalised total lies between the lowest and the highest applied sub-score |
| Aggregate.ThreeCriteria | src/services/search_handler.py:142-165 | for three criteria, the weighted sum, applied weight, applied scores and total weight are the per-criterion parts added up |
| VectorSimilarity.NonZero | src/services/search_handler.py:35-37 | `np.linalg.norm(v)` is truthy: the norm is non-zero exactly when some component is |
| VectorSimilarity.Dot | src/services/search_handler.py:34 | `np.dot` of two vectors of equal length: the sum of the pointwise products |
| VectorSimilarity.Similarities | src/services/search_handler.py:32-38 | the list holds exactly the quotients of the query vectors whose norm and the candidate's are both truthy |
| VectorSimilarity.BestOfBatch | src/services/search_handler.py:26-44 | 0 for an empty list on either side or a length mismatch (a caught `np.dot` error); otherwise the largest qualifying quotient, or 0 when none qualifies |
| VectorSimilarity.BestOfBatchCanBeNegative | src/services/search_handler.py:38-40 | the search's skills score is not clamped: it is negative when every qualifying query points away from the candidate |
| VectorSimilarity.BestOfBatchWithin | src/services/search_handler.py:34-40 | with a genuine cosine, the search's skills score lies in [-1, 1] |
| VectorSimilarity.Clamp | src/services/rank_handler.py:37 | `max(0.0, min(1.0, x))`: always in [0, 1], the identity inside [0, 1], 0 at or below 0 and 1 at or above 1 |
| VectorSimilarity.ClampedCosine | src/services/rank_handler.py:25-42 | the ranking's skills match lies in [0, 1]; a failed guard or a length mismatch scores 0; otherwise it is the quotient clamped into [0, 1] |
| VectorSimilarity.ClampedCosineZeroIff | src/services/rank_handler.py:28-38 | with a genuine cosine, the skills match is 0 exactly when a guard fails or the dot product is not positive |
| VectorSimilarity.ClampedCosineSelf | src/services/rank_handler.py:31-37 | with a genuine cosine, a non-zero vector matches itself with 1.0 |
| VectorSimilarity.InnerCosine | src/database/candidate_crud.py:71-77 | the store's cosine fails exactly on two non-empty vectors of different lengths; an empty vector or a zero norm gives 0; otherwise it is the raw quotient |
| VectorSimilarity.VariantsAgree | src/database/candidate_crud.py:71-77 | where the store's cosine succeeds, the ranking's match is its clamp and the search's score with one query vector equals it |
| LocationMatch.Split | src/services/search_handler.py:53-54 | `str.split(',')` gives at least one piece and no piece contains a comma |
| LocationMatch.JoinSplit | src/services/search_handler.py:53-54 | joining the pieces of a split with the separator gives back the string |
| LocationMatch.SplitJoin | src/services/search_handler.py:53-54 | splitting a join of separator-free pieces gives back the pieces |
| LocationMatch.SplitPiece | src/services/search_handler.py:53-54 | a separator-free prefix is glued onto the first piece of what follows |
| LocationMatch.IsSpace | src/services/search_handler.py:53-54 | the characters `str.strip()` removes: the `str.isspace` set |
| LocationMatch.LeadingSpaces | src/services/search_handler.py:53-54 | counts exactly the whitespace run at the start of a string |
| LocationMatch.TrailingSpaces | src/services/search_handler.py:53-54 | counts exactly the whitespace run at the end of a string |
| LocationMatch.Strip | src/services/search_handler.py:53-54 | `str.strip()` is the slice after the leading whitespace that is followed only by whitespace; it does not start or end with whitespace |
| LocationMatch.LowerChar | src/services/search_handler.py:53-54 | `str.lower()` on one character: ASCII capitals become small letters, every other character is kept |
| LocationMatch.Lower | src/services/search_handler.py:53-54 | `str.lower()` keeps the length and lower-cases each character in place |
| LocationMatch.Normalize | src/services/search_handler.py:53-54 | each piece is stripped and then lower-cased, in order |
| LocationMatch.Segments | src/services/search_handler.py:53-54 | a location string always has at least one segment |
| LocationMatch.Matches | src/services/search_handler.py:79 | the `zip` match count is bounded by both lengths, and reaches the shorter's length exactly when it is a prefix of the longer |
| LocationMatch.RatioWithin | src/services/search_handler.py:80 | the matched ratio lies in [0, 1] and is 1 only when every position matches |
| LocationMatch.IsSubstring | src/services/search_handler.py:67 | Python's `a in b` on strings: a occurs in b at some offset |
| LocationMatch.SegmentSimilarity | src/services/search_handler.py:61-81 | a segment pair scores within [0, 1], and 1.0 exactly when the segments are equal; the substring and ratio rules are SubstringSegmentScore and RatioSegmentScore |
| LocationMatch.SubstringSegmentScore | src/services/search_handler.py:66-69 | two different segments, one contained in the other in either direction, score 0.9 |
| LocationMatch.RatioSegmentScore | src/services/search_handler.py:71-81 | when neither segment contains the other, the score is the `zip` count of agreeing positions of the shorter (the query on equal lengths) against the longer, divided by the longer's non-zero length, and is below 1 |
| LocationMatch.EmptySegmentScore | src/services/search_handler.py:66-69 | an empty query segment is a substring of any other segment and scores 0.9 |
| LocationMatch.BestScore | src/services/search_handler.py:83 | the best score lies in [0, 1] and is 1.0 exactly when the segment occurs among the candidate's |
| LocationMatch.BestScores | src/services/search_handler.py:56-83 | `max_similarities`: exactly one entry per query segment, each the best score of that segment against the candidate's segments |
| LocationMatch.Match | src/services/search_handler.py:46-92 | the location score lies in [0, 1] and is 0 when either string is empty |
| LocationMatch.MatchFullIff | src/services/search_handler.py:83-86 | a location scores 1.0 exactly when every normalised query segment appears among the candidate's |
| LocationMatch.MatchSelf | src/services/search_handler.py:46-92 | a non-empty location matches itself with 1.0 |
| LocationMatch.SingleSegment | src/services/search_handler.py:53-54 | a comma-free, already trimmed, lower-case string is its own only segment |
| LocationMatch.MisspelledSegment | src/services/search_handler.py:71-80 | "austin" against "austn" is scored by aligned positions only: 4 of 6 |
| LocationMatch.SingleSegmentMatch | src/services/search_handler.py:56-86 | two single-segment locations score exactly as their segments do |
| LocationMatch.MisspelledLocation | src/services/search_handler.py:46-92 | the location "austin" against "austn" scores 4/6 |
| Experience.Gap | src/services/search_handler.py:104 | `abs(a - b)` is non-negative, zero exactly when a equals b, and one of the two differences |
| Experience.GapScore | src/services/search_handler.py:106-117 | the step score lies in [0.1, 1.0] and is 1.0 exactly for a zero gap |
| Experience.ExperienceMatch | src/services/search_handler.py:98-117 | 0 when either value is missing; otherwise in [0.1, 1.0], and 1.0 exactly when the two values agree |
| Experience.GapScoreMonotone | src/services/search_handler.py:106-117 | a wider gap never scores higher |
| Experience.ExperienceMatchSymmetric | src/services/rank_handler.py:44-63 | swapping the candidate's and the required experience changes nothing |
| Experience.ExperienceMatchMonotone | src/services/rank_handler.py:50-63 | of two pairs, the one further apart never scores higher |
| Experience.ExperienceMatchSteps | src/services/rank_handler.py:52-63 | the whole step table over intervals of the gap: 1.0 at 0, 0.9 on (0, 1], 0.7 on (1, 2], 0.5 on (2, 3], 0.3 on (3, 4] and 0.1 beyond 4 |
| Search.SkillsApplies | src/services/search_handler.py:142 | skills count when the query lists at least one vector and the candidate has a non-empty resume vector |
| Search.LocationApplies | src/services/search_handler.py:149 | location counts when both the query and the candidate name a non-empty location |
| Search.ExperienceApplies | src/services/search_handler.py:159 | experience counts when a non-zero experience is required and the column is not the empty-string sentinel; a null column passes |
| Search.SkillsScore | src/services/search_handler.py:142-143 | the best cosine over the query vectors when skills apply, otherwise the reported 0.0 (`skills_score or 0.0`) |
| Search.LocationScore | src/services/search_handler.py:149-153 | the location matcher on the two locations when location applies, otherwise 0.0 |
| Search.ExperienceScore | src/services/search_handler.py:159-163 | the experience step score when experience applies (0 for a null column), otherwise 0.0 |
| Search.AppliedWeightOf | src/services/search_handler.py:139-165 | `total_weight`: the sum of the weights 0.6, 0.2 and 0.2 whose guards hold |
| Search.Normalised | src/services/search_handler.py:169-170 | definition: the reported record with the three sub-scores and `total_score / total_weight` as its total; what that total means is EvaluateTotal, NormalisedIsMean and TotalBetweenApplied |
| Search.Evaluate | src/services/search_handler.py:137-182 | no score exactly when no criterion applies; each unapplied sub-score reported as 0.0 and each applied one equal to its matcher; the applied weight is positive and the total is (0.6·skills + 0.2·location + 0.2·experience) divided by it, which puts it between the lowest and the highest applied sub-score |
| Search.EvaluateTotal | src/services/search_handler.py:139-170 | the total of a scored candidate is the weighted sum of its reported sub-scores divided by the applied weight |
| Search.TotalBetweenApplied | src/services/search_handler.py:139-170 | the normalised total lies between the lowest and the highest applied sub-score |
| Search.NormalisedIsMean | src/services/search_handler.py:139-170 | the normalised total equals the weighted mean of the three criteria |
| Search.CriteriaSums | src/services/search_handler.py:139-166 | the weighted sum and the applied weight over the three criteria, written out per criterion |
| Search.Scan | src/services/search_handler.py:135-182 | the results hold exactly the candidates that are scored and reach `min_score`, each with its own scores, and no more entries than candidates |
| Search.ScanAppend | src/services/search_handler.py:135-182 | the scan of two lists one after the other is their two scans one after the other, so entries keep the candidates' order |
| Search.ScanSingle | src/services/search_handler.py:168-182 | one candidate gives its own entry when admitted and nothing otherwise |
| Search.ScanCons | src/services/search_handler.py:135-182 | the scan of a candidate followed by a list is that candidate's entry, if any, followed by the list's scan |
| Search.SearchCandidates | src/services/search_handler.py:123-202 | every entry is a scored candidate reaching `min_score` with its own scores, none duplicated; sorted best first; equal totals keep scan order; no admitted candidate left out beats one kept; exactly as many entries as `[:limit]` leaves of the admitted list |
| Search.EvaluateWithin | src/services/search_handler.py:168-170 | with a genuine cosine, a total lies in [-1, 1], and in [0, 1] without the skills criterion |
| Search.AppliedWithin | src/services/search_handler.py:142-165 | with a genuine cosine, every applied sub-score lies in [-1, 1], and in [0, 1] without skills |
| Search.SingleCriterionTotal | src/services/search_handler.py:169-170 | with one applied criterion, normalisation returns exactly that criterion's sub-score |
| Search.ZeroRequiredExperienceIgnored | src/services/search_handler.py:159 | a required experience of 0 is falsy: the score equals that of a query without it |
| Search.NullExperienceCountsAsZero | src/services/search_handler.py:159-170 | a null experience column passes the `!= ""` guard: the weight applies with sub-score 0, and skills alone keep three quarters of their score |
| Search.BlankExperienceSkipped | src/services/search_handler.py:159-170 | the empty-string sentinel skips the experience criterion, so skills alone keep their full score |
| Search.Totals | src/services/search_handler.py:225 | `scores = [r['scores'].total_score for r in search_results]`: one total per result, in order |
| Search.CountWhere | src/services/search_handler.py:232-234 | `len([s for s in scores if p(s)])`: never more than the number of scores |
| Search.Excellent | src/services/search_handler.py:232 | the excellent bucket: a total of at least 0.8 |
| Search.Good | src/services/search_handler.py:233 | the good bucket: a total in [0.6, 0.8) |
| Search.Fair | src/services/search_handler.py:234 | the fair bucket: a total in [0.5, 0.6) |
| Search.Summarize | src/services/search_handler.py:208-236 | all zeros for no results; otherwise the count is the number of results, max and min are attained by some result and bound every total, the mean is `np.mean` of the totals and lies between them, each bucket is the count of totals in its range, and the buckets with the totals below 0.5 add up to the count |
| Search.BucketsPartition | src/services/search_handler.py:232-234 | the three buckets and the totals below 0.5 add up to the number of scores |
| Search.NonePoor | src/services/search_handler.py:232-234 | with every total at least 0.5, none falls below the buckets |
| Search.BucketsCoverAdmitted | src/services/search_handler.py:231-235 | with every total at least 0.5, the three buckets add up to the count |
| Search.SummaryOfSearchBuckets | src/services/search_handler.py:208-236 | for a search with `min_score` at least 0.5, the summary's buckets add up to its count |
| Rank.SkillsApplies | src/services/rank_handler.py:102 | skills count when both the job's and the candidate's vectors are non-empty |
| Rank.ExperienceApplies | src/services/rank_handler.py:111 | experience counts when both the required and the candidate's experience are truthy; 0, null and the blank sentinel leave it out |
| Rank.LocationApplies | src/services/rank_handler.py:120-121 | location counts when both the job and the candidate name a non-empty location |
| Rank.Criteria | src/services/rank_handler.py:101-129 | the three criteria with weights 0.4, 0.3 and 0.1: the clamped cosine, the experience step score and the location matcher, each 0 when its guard fails |
| Rank.Score | src/services/rank_handler.py:92-129 | each unapplied sub-score stays 0.0 and each applied one equals its matcher; the total is 0.4·skills + 0.3·experience + 0.1·location, within [0, 0.8] |
| Rank.Scan | src/services/rank_handler.py:92-137 | the ranked list holds exactly the candidates whose total reaches `min_score`, each with its own scores, and no more entries than candidates |
| Rank.ScanAppend | src/services/rank_handler.py:92-137 | the scan of two lists one after the other is their two scans one after the other, so entries keep the candidates' order |
| Rank.ScanSingle | src/services/rank_handler.py:131-137 | one candidate gives its own scores when they reach `min_score` and nothing otherwise |
| Rank.ScanCons | src/services/rank_handler.py:92-137 | the scan of a candidate followed by a list is that candidate's entry, if any, followed by the list's scan |
| Rank.RankForJob | src/services/rank_handler.py:131-144 | every entry is a candidate reaching `min_score` with its own scores, none duplicated; sorted best first; equal totals keep scan order; no candidate left out beats one kept; exactly as many entries as `[:limit]` leaves of the candidates reaching `min_score` |
| Rank.RankCandidates | src/services/rank_handler.py:78-156 | no entries for a missing job or an empty candidate table; otherwise the filtered, sorted and sliced ranking |
| Rank.PerfectMatchScoresEightTenths | src/services/rank_handler.py:17-23 | a candidate matching perfectly on all three criteria scores 0.8, because the title weight is never applied |
| Rank.ZeroYearsTreatedAsMissing | src/services/rank_handler.py:111 | zero years of experience is falsy: the experience sub-score stays 0, although the step function would give at least 0.1 |
| Rank.LocationAgreesWithSearch | src/services/rank_handler.py:119-129 | the ranking's location sub-score is the search's location score for the job's location |
| CandidateStore.Considered | src/database/candidate_crud.py:66-68 | only rows whose resume vector is not null are fetched |
| CandidateStore.Raises | src/database/candidate_crud.py:72-74 | comparing the query with a considered candidate raises: `np.dot` on two non-empty vectors of different lengths |
| CandidateStore.Similarity | src/database/candidate_crud.py:71-77 | the cosine of a considered candidate that does not raise: 0 for an empty side or a zero norm, otherwise the raw quotient |
| CandidateStore.ScoreAll | src/database/candidate_crud.py:66-83 | fails exactly when some candidate's comparison raises; otherwise it pairs every candidate with a non-null vector with its similarity, and nothing else |
| CandidateStore.ScoreAllAppend | src/database/candidate_crud.py:66-83 | scoring two lists one after the other: the first error wins, otherwise the pairs are the two lists' pairs one after the other |
| CandidateStore.ScoreAllSingle | src/database/candidate_crud.py:66-83 | one candidate gives an error when its comparison raises, its pair when its vector is non-null, nothing otherwise |
| CandidateStore.ScoreAllCons | src/database/candidate_crud.py:66-83 | the scan of a candidate followed by a list, by the cases of the candidate and the rest |
| CandidateStore.ScoreAllWithin | src/database/candidate_crud.py:66-83 | the scan pairs each candidate at most as often as it is listed |
| CandidateStore.Candidates | src/database/candidate_crud.py:86-89 | drops the scores: one candidate per pair, in the same order |
| CandidateStore.AtLeast | src/database/candidate_crud.py:86-89 | keeps exactly the pairs reaching the threshold, each no more often than the input holds it |
| CandidateStore.SearchScored | src/database/candidate_crud.py:54-98 | fails exactly when some non-null, non-empty vector has a length different from a non-empty query; otherwise pairs reaching the threshold, drawn from the scan without duplication, sorted best first, ties in scan order, no qualifying pair left out beating one kept, exactly as many as `[:limit]` leaves of the pairs reaching the threshold |
| CandidateStore.TiesBelowThresholdEmpty | src/database/candidate_crud.py:86-95 | no pair at or above the threshold ties at a value below it |
| CandidateStore.SearchBySkills | src/database/candidate_crud.py:54-102 | fails exactly when the scored search fails; otherwise the result is the scored search's candidates in its order, so equal similarities keep scan order; each candidate has a non-null vector reaching the threshold, the order is non-increasing by similarity, no qualifying candidate left out beats one returned, no candidate is returned more often than it is listed, and exactly as many are returned as `[:limit]` leaves of the candidates reaching the threshold |
| CandidateStore.SelectedCandidatesStable | src/database/candidate_crud.py:91-98 | for every similarity value, the returned candidates with that value are the first candidates with it in scan order (the stable sort followed by `[:limit]`) |
| CandidateStore.SelectedCandidatesQualify | src/database/candidate_crud.py:86-98 | every returned candidate has a non-null vector and reaches the threshold |
| CandidateStore.SelectedCandidatesOrdered | src/database/candidate_crud.py:91-95 | returned candidates come by non-increasing similarity |
| CandidateStore.SelectedCandidatesBest | src/database/candidate_crud.py:86-98 | a qualifying candidate left out scores no higher than any returned one |
| CandidateStore.SelectedCandidatesWithin | src/database/candidate_crud.py:66-98 | no candidate is returned more often than it is listed |
| CandidateStore.CandidatesWithin | src/database/candidate_crud.py:86-89 | pairs drawn from a list without duplication have candidates drawn from its candidates without duplication |
| CandidateStore.SelfMatchQualifies | src/database/candidate_crud.py:71-77 | with a genuine cosine, a candidate whose vector equals a non-zero query has similarity 1.0 and never raises |
| CandidateStore.SelfMatchReturned | src/database/candidate_crud.py:54-98 | with a genuine cosine and a threshold up to 1, a candidate whose vector equals a non-zero query is returned whenever the limit leaves room for every candidate reaching the threshold |

## Left out

- Database access, the embedding model, the LLM-based parser, the HTTP layer and logging are not modelled. The candidate and job tables are inputs to the operations.
- The cosine quotient is a parameter, because the square root in `np.linalg.norm` has no counterpart here. Only the facts in `IsCosine` are assumed of it, and only by the lemmas that name it.
- Floating point is modelled as exact reals. Rounding in sums, divisions and the cosine, and comparisons that rounding could flip, are not modelled.
- `str.lower()` is modelled for ASCII letters only. Other characters are kept as they are, so Unicode case mapping is not modelled.
- Strings are sequences of code points. `str.strip()` removes the characters Python's `str.isspace` accepts.
- Apart from the `np.dot` length mismatch, the exceptions the handlers catch are not modelled. These include a `parsed_resume` that is not a mapping, an experience value of an unexpected type, and the ranking's catch-all that turns any failure into an empty list. Typed fields rule these out.
- The experience column can hold a non-empty string in the database. The model's `ExperienceField` has only null, the empty-string sentinel and a number. In the search, such a string would make the step function raise, which the source catches and scores as 0; this case is not modelled.
- A skills query whose embedding failed is not modelled. `embed_text_batch` then returns a list of `None` (src/utils/text_embedder.py:78), and that list is passed on as `skills_vectors` (src/api/candidate_endpoints.py:214-217). `np.dot` on a `None` entry raises inside `calculate_skills_similarity`, which scores skills 0 while their 0.6 weight stays applied (src/services/search_handler.py:29-44). `Query.skillsVectors` holds only real vectors, so it cannot express this case.
- `get_search_summary`'s fallback record for an exception is left out, because the model's summary cannot fail.
- Rank.RankCandidates: states only the result's shape beyond delegating to `Rank.RankForJob`, which carries the full ordering and top-k contract.
- The title weight of 0.2 is configured but never scored in the source. The model keeps the constant and proves that a perfect candidate totals 0.8.
- Experience units are not modelled. The job table comments `required_experience` as months (src/models/job_model.py:17), while the schema and the resume parser use years. The source compares the two numbers as they are, and so does the model.
- The candidate store's sort key re-computes each cosine. The model sorts by the similarity computed in the scan, which is the same value because the computation is deterministic.

=== FILE: aggregate.dfy ===
/** The weighted combination both orchestrators perform: each criterion, when
    its guard holds, adds score·weight to a running total and weight to the
    applied weight. Search divides the two; ranking keeps the raw total. */
module Aggregate {
  import opened Numeric

  /** One criterion as evaluated for one candidate. */
  datatype Criterion = Criterion(applied: bool, score: real, weight: real)

  /** Sum of score·weight over the applied criteria. */
  function Contribution(cs: seq<Criterion>): real {
    if |cs| == 0 then 0.0
    else (if cs[0].applied then cs[0].score * cs[0].weight else 0.0) + Contribution(cs[1..])
  }

  /** Sum of weight over the applied criteria. */
  function AppliedWeight(cs: seq<Criterion>): real {
    if |cs| == 0 then 0.0
    else (if cs[0].applied then cs[0].weight else 0.0) + AppliedWeight(cs[1..])
  }

  /** Sum of every weight, applied or not. */
  function TotalWeight(cs: seq<Criterion>): real {
    if |cs| == 0 then 0.0 else cs[0].weight + TotalWeight(cs[1..])
  }

  ghost predicate NonNegativeWeights(cs: seq<Criterion>) {
    forall i :: 0 <= i < |cs| ==> cs[i].weight >= 0.0
  }

  /** Every applied criterion scores within [lo, hi]. */
  ghost predicate AppliedScoresWithin(cs: seq<Criterion>, lo: real, hi: real) {
    forall i :: 0 <= i < |cs| && cs[i].applied ==> lo <= cs[i].score <= hi
  }

  lemma ScaleAtMost(score: real, hi: real, w: real)
    requires w >= 0.0 && score <= hi
    ensures score * w <= hi * w
  {
  }

  lemma ScaleAtLeast(score: real, lo: real, w: real)
    requires w >= 0.0 && lo <= score
    ensures lo * w <= score * w
  {
  }

  /** The total is at most hi times the applied weight. */
  lemma {:induction false} ContributionAtMost(cs: seq<Criterion>, hi: real)
    requires NonNegativeWeights(cs)
    requires forall i :: 0 <= i < |cs| && cs[i].applied ==> cs[i].score <= hi
    ensures Contribution(cs) <= hi * AppliedWeight(cs)
  {
    if |cs| > 0 {
      ContributionAtMost(cs[1..], hi);
      if cs[0].applied {
        ScaleAtMost(cs[0].score, hi, cs[0].weight);
      }
    }
  }

  /** The total is at least lo times the applied weight. */
  lemma {:induction false} ContributionAtLeast(cs: seq<Criterion>, lo: real)
    requires NonNegativeWeights(cs)
    requires forall i :: 0 <= i < |cs| && cs[i].applied ==> lo <= cs[i].score
    ensures lo * AppliedWeight(cs) <= Contribution(cs)
  {
    if |cs| > 0 {
      ContributionAtLeast(cs[1..], lo);
      if cs[0].applied {
        ScaleAtLeast(cs[0].score, lo, cs[0].weight);
      }
    }
  }

  /** The applied weight never exceeds the configured weights' sum, and is
      never negative. */
  lemma {:induction false} AppliedWeightBounds(cs: seq<Criterion>)
    requires NonNegativeWeights(cs)
    ensures 0.0 <= AppliedWeight(cs) <= TotalWeight(cs)
  {
    if |cs| > 0 {
      AppliedWeightBounds(cs[1..]);
    }
  }

  /** The applied weight is zero exactly when no positively weighted
      criterion is applied. */
  lemma {:induction false} AppliedWeightZero(cs: seq<Criterion>)
    requires NonNegativeWeights(cs)
    ensures AppliedWeight(cs) == 0.0 <==> forall i :: 0 <= i < |cs| && cs[i].applied ==> cs[i].weight == 0.0
  {
    if |cs| > 0 {
      AppliedWeightZero(cs[1..]);
      AppliedWeightBounds(cs[1..]);
      assert forall i :: 1 <= i < |cs| ==> cs[i] == cs[1..][i - 1];
    }
  }

  /** A normalised total is a weighted mean: it lies between the lowest and
      the highest applied sub-score. */
  lemma WeightedMeanWithin(cs: seq<Criterion>, lo: real, hi: real)
    requires NonNegativeWeights(cs)
    requires AppliedScoresWithin(cs, lo, hi)
    requires AppliedWeight(cs) > 0.0
    ensures lo <= Contribution(cs) / AppliedWeight(cs) <= hi
  {
    var total, w := Contribution(cs), AppliedWeight(cs);
    ContributionAtLeast(cs, lo);
    ContributionAtMost(cs, hi);
    assert lo * w <= total <= hi * w;
    DivideWithin(lo, hi, total, w);
  }

  lemma DivideWithin(lo: real, hi: real, total: real, w: real)
    requires w > 0.0 && lo * w <= total <= hi * w
    ensures lo <= total / w <= hi
  {
  }

  /** A raw total of sub-scores in [0, 1] lies between 0 and the configured
      weights' sum. */
  lemma RawTotalWithin(cs: seq<Criterion>)
    requires NonNegativeWeights(cs)
    requires AppliedScoresWithin(cs, 0.0, 1.0)
    ensures 0.0 <= Contribution(cs) <= TotalWeight(cs)
  {
    ContributionAtLeast(cs, 0.0);
    ContributionAtMost(cs, 1.0);
    AppliedWeightBounds(cs);
  }

  /** The sub-scores of the applied criteria, in order. */
  function AppliedScores(cs: seq<Criterion>): (r: seq<real>)
    ensures forall i :: 0 <= i < |cs| && cs[i].applied ==> cs[i].score in r
    ensures forall x :: x in r ==> exists i :: 0 <= i < |cs| && cs[i].applied && cs[i].score == x
  {
    if |cs| == 0 then []
    else
      var rest := AppliedScores(cs[1..]);
      assert forall i :: 1 <= i < |cs| ==> cs[i] == cs[1..][i - 1];
      if cs[0].applied then [cs[0].score] + rest else rest
  }

  /** A positive applied weight needs an applied criterion. */
  lemma {:induction false} PositiveWeightApplied(cs: seq<Criterion>)
    requires AppliedWeight(cs) != 0.0
    ensures |AppliedScores(cs)| > 0
  {
    if |cs| > 0 && !cs[0].applied {
      PositiveWeightApplied(cs[1..]);
    }
  }

  /** A normalised total lies between the lowest and the highest of the
      applied sub-scores. */
  lemma WeightedMeanBetween(cs: seq<Criterion>)
    requires NonNegativeWeights(cs)
    requires AppliedWeight(cs) > 0.0
    ensures |AppliedScores(cs)| > 0
    ensures MinOf(AppliedScores(cs)) <= Contribution(cs) / AppliedWeight(cs) <= MaxOf(AppliedScores(cs))
  {
    PositiveWeightApplied(cs);
    var scores := AppliedScores(cs);
    var lo, hi := MinOf(scores), MaxOf(scores);
    assert AppliedScoresWithin(cs, lo, hi) by {
      forall i | 0 <= i < |cs| && cs[i].applied
        ensures lo <= cs[i].score <= hi
      {
        var x := cs[i].score;
        assert x in scores;
        var j :| 0 <= j < |scores| && scores[j] == x;
      }
    }
    WeightedMeanWithin(cs, lo, hi);
  }

  /** The applied part of one criterion, as a list. */
  function AppliedPart(c: Criterion): seq<real> {
    if c.applied then [c.score] else []
  }

  /** Score·weight of one criterion when applied, 0 otherwise. */
  function Part(c: Criterion): real {
    if c.applied then c.score * c.weight else 0.0
  }

  /** Weight of one criterion when applied, 0 otherwise. */
  function PartWeight(c: Criterion): real {
    if c.applied then c.weight else 0.0
  }

  /** Over three criteria whose unapplied scores are 0, the weighted sum is
      every weight times its score. */
  lemma ThreeWeighted(a: Criterion, b: Criterion, c: Criterion)
    requires !a.applied ==> a.score == 0.0
    requires !b.applied ==> b.score == 0.0
    requires !c.applied ==> c.score == 0.0
    ensures Contribution([a, b, c]) == a.weight * a.score + b.weight * b.score + c.weight * c.score
  {
    ThreeCriteria(a, b, c);
  }

  /** The three sums over a list of three criteria, written out. */
  lemma ThreeCriteria(a: Criterion, b: Criterion, c: Criterion)
    ensures Contribution([a, b, c]) == Part(a) + Part(b) + Part(c)
    ensures AppliedWeight([a, b, c]) == PartWeight(a) + PartWeight(b) + PartWeight(c)
    ensures AppliedScores([a, b, c]) == AppliedPart(a) + AppliedPart(b) + AppliedPart(c)
    ensures TotalWeight([a, b, c]) == a.weight + b.weight + c.weight
  {
    assert [a, b, c][1..] == [b, c];
    assert [b, c][1..] == [c];
    assert [c][1..] == [];
    assert Contribution([c]) == Part(c);
    assert Contribution([b, c]) == Part(b) + Contribution([c]);
    assert TotalWeight([c]) == c.weight;
    assert TotalWeight([b, c]) == b.weight + TotalWeight([c]);
    assert AppliedWeight([c]) == PartWeight(c);
    assert AppliedWeight([b, c]) == PartWeight(b) + AppliedWeight([c]);
    assert AppliedScores([c]) == AppliedPart(c) + [];
    assert AppliedScores([b, c]) == AppliedPart(b) + AppliedScores([c]);
    assert AppliedScores([a, b, c]) == AppliedPart(a) + AppliedScores([b, c]);
  }
}

=== FILE: candidate_store.dfy ===
/** The candidate store's vector search: every candidate whose resume vector
    is not null is compared with one query vector by the raw cosine; those
    reaching the threshold are sorted best first (stably) and cut to the
    limit. Unlike the handlers, this code does not catch the error `np.dot`
    raises on vectors of different lengths, so one such candidate makes the
    whole search fail. */
module CandidateStore {
  import opened Records
  import opened Ordering
  import opened VectorSimilarity

  /** A candidate paired with its similarity to the query. */
  datatype Scored = Scored(candidate: Candidate, similarity: real)

  function SimilarityOf(s: Scored): real {
    s.similarity
  }

  /** Only rows whose resume vector is not null are fetched. */
  predicate Considered(c: Candidate) {
    c.resumeVector.Some?
  }

  /** Comparing the query with this candidate raises. */
  predicate Raises(cos: (Vector, Vector) -> real, query: Vector, c: Candidate) {
    Considered(c) && InnerCosine(cos, query, c.resumeVector.value).Err?
  }

  /** The similarity of a considered candidate that does not raise. */
  function Similarity(cos: (Vector, Vector) -> real, query: Vector, c: Candidate): real
    requires Considered(c) && !Raises(cos, query, c)
  {
    InnerCosine(cos, query, c.resumeVector.value).value
  }

  /** `candidates_with_scores`: every considered candidate with its
      similarity, in scan order, or an error when any comparison raises. */
  function ScoreAll(cos: (Vector, Vector) -> real, query: Vector, candidates: seq<Candidate>): (r: Result<seq<Scored>>)
    ensures r.Err? <==> exists c :: c in candidates && Raises(cos, query, c)
    ensures r.Ok? ==> forall s :: s in r.value ==>
              s.candidate in candidates && Considered(s.candidate) && s.similarity == Similarity(cos, query, s.candidate)
    ensures r.Ok? ==> forall c :: c in candidates && Considered(c) ==> Scored(c, Similarity(cos, query, c)) in r.value
  {
    if |candidates| == 0 then Ok([])
    else
      var c := candidates[0];
      assert candidates == [c] + candidates[1..];
      if Raises(cos, query, c) then Err("shapes not aligned")
      else
        var rest := ScoreAll(cos, query, candidates[1..]);
        if rest.Err? then rest
        else if Considered(c) then Ok([Scored(c, Similarity(cos, query, c))] + rest.value)
        else rest
  }

  /** Scoring two lists one after the other: the first error wins, and
      otherwise the pairs come in the candidates' order. */
  lemma {:induction false} ScoreAllAppend(cos: (Vector, Vector) -> real, query: Vector, a: seq<Candidate>, b: seq<Candidate>)
    ensures ScoreAll(cos, query, a + b) ==
              if ScoreAll(cos, query, a).Err? then ScoreAll(cos, query, a)
              else if ScoreAll(cos, query, b).Err? then ScoreAll(cos, query, b)
              else Ok(ScoreAll(cos, query, a).value + ScoreAll(cos, query, b).value)
  {
    if |a| == 0 {
      assert a + b == b && ScoreAll(cos, query, a) == Ok([]);
      if ScoreAll(cos, query, b).Ok? {
        assert [] + ScoreAll(cos, query, b).value == ScoreAll(cos, query, b).value;
      }
    } else {
      var c, t := a[0], a[1..];
      HeadOfAppend(a, b);
      ScoreAllCons(cos, query, c, t + b);
      ScoreAllCons(cos, query, c, t);
      ScoreAllAppend(cos, query, t, b);
      var rt, rb := ScoreAll(cos, query, t), ScoreAll(cos, query, b);
      if !Raises(cos, query, c) && Considered(c) && rt.Ok? && rb.Ok? {
        AppendAssociates([Scored(c, Similarity(cos, query, c))], rt.value, rb.value);
      }
    }
  }

  lemma ScoreAllCons(cos: (Vector, Vector) -> real, query: Vector, c: Candidate, t: seq<Candidate>)
    ensures ScoreAll(cos, query, [c] + t) ==
              if Raises(cos, query, c) then Err("shapes not aligned")
              else if ScoreAll(cos, query, t).Err? then ScoreAll(cos, query, t)
              else if Considered(c) then Ok([Scored(c, Similarity(cos, query, c))] + ScoreAll(cos, query, t).value)
              else ScoreAll(cos, query, t)
  {
    assert ([c] + t)[0] == c && ([c] + t)[1..] == t;
  }

  /** A single candidate: an error when its comparison raises, its pair
      when it is considered, nothing otherwise. */
  lemma ScoreAllSingle(cos: (Vector, Vector) -> real, query: Vector, c: Candidate)
    ensures ScoreAll(cos, query, [c]) ==
              if Raises(cos, query, c) then Err("shapes not aligned")
              else if Considered(c) then Ok([Scored(c, Similarity(cos, query, c))])
              else Ok([])
  {
    assert [c][1..] == [];
    assert ScoreAll(cos, query, [c][1..]) == Ok([]);
    if !Raises(cos, query, c) && Considered(c) {
      assert [Scored(c, Similarity(cos, query, c))] + [] == [Scored(c, Similarity(cos, query, c))];
    }
  }

  /** `filtered_candidates`: the pairs reaching the threshold, in order. */
  function AtLeast(scored: seq<Scored>, threshold: real): (r: seq<Scored>)
    ensures forall s :: s in r <==> s in scored && s.similarity >= threshold
    ensures multiset(r) <= multiset(scored)
    ensures forall k :: k >= threshold ==> Ties(r, SimilarityOf, k) == Ties(scored, SimilarityOf, k)
  {
    if |scored| == 0 then []
    else
      var rest := AtLeast(scored[1..], threshold);
      assert scored == [scored[0]] + scored[1..];
      if scored[0].similarity >= threshold then [scored[0]] + rest else rest
  }

  /** The candidates of a list of pairs, in the same order. */
  function Candidates(scored: seq<Scored>): (r: seq<Candidate>)
    ensures |r| == |scored|
    ensures forall i :: 0 <= i < |scored| ==> r[i] == scored[i].candidate
  {
    if |scored| == 0 then [] else [scored[0].candidate] + Candidates(scored[1..])
  }

  /** The search before the pairs are dropped: an error exactly when some
      considered candidate's vector has a length different from the
      query's (both non-empty); otherwise pairs of considered candidates
      with their own similarity, every one at least the threshold, sorted
      best first with equal similarities in scan order, no qualifying pair
      left out scoring above one kept, and exactly as many as `[:limit]`
      leaves of the pairs reaching the threshold. */
  function SearchScored(cos: (Vector, Vector) -> real, query: Vector, candidates: seq<Candidate>, limit: int, threshold: real): (r: Result<seq<Scored>>)
    ensures r.Err? <==> exists c :: c in candidates && Considered(c) && |query| > 0 && |c.resumeVector.value| > 0 && |c.resumeVector.value| != |query|
    ensures r.Ok? ==> forall s :: s in r.value ==>
              s.candidate in candidates && Considered(s.candidate) && s.similarity == Similarity(cos, query, s.candidate) && s.similarity >= threshold
    ensures r.Ok? ==> SortedDesc(r.value, SimilarityOf)
    ensures r.Ok? ==> multiset(r.value) <= multiset(ScoreAll(cos, query, candidates).value)
    ensures r.Ok? ==> forall k :: Ties(r.value, SimilarityOf, k) <= Ties(ScoreAll(cos, query, candidates).value, SimilarityOf, k)
    ensures r.Ok? ==> forall c, s ::
              (c in candidates && Considered(c) && Similarity(cos, query, c) >= threshold && s in r.value &&
               Scored(c, Similarity(cos, query, c)) !in r.value) ==> Similarity(cos, query, c) <= s.similarity
    ensures r.Ok? ==> |r.value| == SliceLength(|AtLeast(ScoreAll(cos, query, candidates).value, threshold)|, limit)
  {
    var all := ScoreAll(cos, query, candidates);
    if all.Err? then Err(all.reason)
    else
      var kept := AtLeast(all.value, threshold);
      var r := SelectTop(kept, SimilarityOf, limit);
      forall s | s in r
        ensures s in kept
      {
        SelectedFromInput(kept, SimilarityOf, limit, s);
      }
      forall c, s | c in candidates && Considered(c) && Similarity(cos, query, c) >= threshold && s in r
          && Scored(c, Similarity(cos, query, c)) !in r
        ensures Similarity(cos, query, c) <= s.similarity
      {
        SelectedAreBest(kept, SimilarityOf, limit, s, Scored(c, Similarity(cos, query, c)));
      }
      forall k
        ensures Ties(r, SimilarityOf, k) <= Ties(all.value, SimilarityOf, k)
      {
        if k >= threshold {
          assert Ties(r, SimilarityOf, k) <= Ties(kept, SimilarityOf, k);
        } else {
          TiesBelowThresholdEmpty(r, threshold, k);
        }
      }
      Ok(r)
  }

  /** No pair at or above the threshold ties at a value below it. */
  lemma {:induction false} TiesBelowThresholdEmpty(scored: seq<Scored>, threshold: real, k: real)
    requires forall s :: s in scored ==> s.similarity >= threshold
    requires k < threshold
    ensures Ties(scored, SimilarityOf, k) == []
  {
    if |scored| > 0 {
      assert scored[0] in scored;
      assert forall s :: s in scored[1..] ==> s in scored;
      TiesBelowThresholdEmpty(scored[1..], threshold, k);
    }
  }

  /** `search_candidates_by_skills`: the candidates of SearchScored, in its
      order. It fails exactly when SearchScored does. Each returned candidate
      is considered and reaches the threshold, the list is ordered by
      non-increasing similarity, a qualifying candidate left out scores no
      higher than any returned one, no candidate comes back more often than
      it is listed, and exactly as many are returned as `[:limit]` leaves of
      the candidates reaching the threshold. */
  function SearchBySkills(cos: (Vector, Vector) -> real, query: Vector, candidates: seq<Candidate>, limit: int, threshold: real): (r: Result<seq<Candidate>>)
    ensures r.Err? <==> SearchScored(cos, query, candidates, limit, threshold).Err?
    ensures r.Ok? ==> forall i :: 0 <= i < |r.value| ==>
              r.value[i] in candidates && Considered(r.value[i]) && Similarity(cos, query, r.value[i]) >= threshold
    ensures r.Ok? ==> forall i, j :: 0 <= i < j < |r.value| ==> Similarity(cos, query, r.value[i]) >= Similarity(cos, query, r.value[j])
    ensures r.Ok? ==> forall c, i ::
              (c in candidates && Considered(c) && Similarity(cos, query, c) >= threshold && c !in r.value && 0 <= i < |r.value|) ==>
              Similarity(cos, query, c) <= Similarity(cos, query, r.value[i])
    ensures r.Ok? ==> |r.value| == SliceLength(|AtLeast(ScoreAll(cos, query, candidates).value, threshold)|, limit)
    ensures r.Ok? ==> multiset(r.value) <= multiset(candidates)
    ensures r.Ok? ==> r.value == Candidates(SearchScored(cos, query, candidates, limit, threshold).value)
  {
    var scored := SearchScored(cos, query, candidates, limit, threshold);
    if scored.Err? then Err(scored.reason)
    else
      SelectedCandidatesQualify(cos, query, candidates, limit, threshold);
      SelectedCandidatesOrdered(cos, query, candidates, limit, threshold);
      SelectedCandidatesBest(cos, query, candidates, limit, threshold);
      SelectedCandidatesWithin(cos, query, candidates, limit, threshold);
      Ok(Candidates(scored.value))
  }

  /** Every candidate the search returns is considered and reaches the
      threshold. */
  lemma SelectedCandidatesQualify(cos: (Vector, Vector) -> real, query: Vector, candidates: seq<Candidate>, limit: int, threshold: real)
    requires SearchScored(cos, query, candidates, limit, threshold).Ok?
    ensures var r := Candidates(SearchScored(cos, query, candidates, limit, threshold).value);
            forall i :: 0 <= i < |r| ==> r[i] in candidates && Considered(r[i]) && Similarity(cos, query, r[i]) >= threshold
  {
    var ss := SearchScored(cos, query, candidates, limit, threshold).value;
    forall i | 0 <= i < |ss|
      ensures Candidates(ss)[i] in candidates && Considered(Candidates(ss)[i]) && ss[i].similarity == Similarity(cos, query, Candidates(ss)[i])
    {
      assert ss[i] in ss;
    }
  }

  /** The candidates the search returns come by non-increasing similarity. */
  lemma SelectedCandidatesOrdered(cos: (Vector, Vector) -> real, query: Vector, candidates: seq<Candidate>, limit: int, threshold: real)
    requires SearchScored(cos, query, candidates, limit, threshold).Ok?
    ensures var r := Candidates(SearchScored(cos, query, candidates, limit, threshold).value);
            forall i, j :: 0 <= i < j < |r| ==> Similarity(cos, query, r[i]) >= Similarity(cos, query, r[j])
  {
    var ss := SearchScored(cos, query, candidates, limit, threshold).value;
    var r := Candidates(ss);
    forall i, j | 0 <= i < j < |r|
      ensures Similarity(cos, query, r[i]) >= Similarity(cos, query, r[j])
    {
      assert ss[i] in ss && ss[j] in ss;
      assert SimilarityOf(ss[i]) >= SimilarityOf(ss[j]);
    }
  }

  /** A qualifying candidate the search leaves out scores no higher than
      any it returns. */
  lemma SelectedCandidatesBest(cos: (Vector, Vector) -> real, query: Vector, candidates: seq<Candidate>, limit: int, threshold: real)
    requires SearchScored(cos, query, candidates, limit, threshold).Ok?
    ensures var r := Candidates(SearchScored(cos, query, candidates, limit, threshold).value);
            forall c, i ::
              (c in candidates && Considered(c) && Similarity(cos, query, c) >= threshold && c !in r && 0 <= i < |r|) ==>
              Similarity(cos, query, c) <= Similarity(cos, query, r[i])
  {
    var ss := SearchScored(cos, query, candidates, limit, threshold).value;
    var r := Candidates(ss);
    forall c, i | c in candidates && Considered(c) && Similarity(cos, query, c) >= threshold && c !in r && 0 <= i < |r|
      ensures Similarity(cos, query, c) <= Similarity(cos, query, r[i])
    {
      NotPaired(ss, c, Similarity(cos, query, c));
      assert ss[i] in ss;
    }
  }

  /** A candidate missing from the candidates of a list of pairs is in no
      pair of it. */
  lemma NotPaired(ss: seq<Scored>, c: Candidate, x: real)
    requires c !in Candidates(ss)
    ensures Scored(c, x) !in ss
  {
    forall k | 0 <= k < |ss|
      ensures ss[k] != Scored(c, x)
    {
      assert Candidates(ss)[k] in Candidates(ss);
    }
  }

  /** The search returns each candidate at most as often as it is listed. */
  lemma SelectedCandidatesWithin(cos: (Vector, Vector) -> real, query: Vector, candidates: seq<Candidate>, limit: int, threshold: real)
    requires SearchScored(cos, query, candidates, limit, threshold).Ok?
    ensures multiset(Candidates(SearchScored(cos, query, candidates, limit, threshold).value)) <= multiset(candidates)
  {
    CandidatesWithin(SearchScored(cos, query, candidates, limit, threshold).value, ScoreAll(cos, query, candidates).value);
    ScoreAllWithin(cos, query, candidates);
  }

  /** Stable ties carry over to the returned candidates: for every
      similarity value, the returned candidates scoring it are the first
      candidates scoring it in scan order. */
  lemma SelectedCandidatesStable(cos: (Vector, Vector) -> real, query: Vector, candidates: seq<Candidate>, limit: int, threshold: real, k: real)
    requires SearchBySkills(cos, query, candidates, limit, threshold).Ok?
    ensures ScoreAll(cos, query, candidates).Ok?
    ensures CandidatesScoring(SearchScored(cos, query, candidates, limit, threshold).value, k)
              <= CandidatesScoring(ScoreAll(cos, query, candidates).value, k)
  {
    var kept := SearchScored(cos, query, candidates, limit, threshold).value;
    var all := ScoreAll(cos, query, candidates).value;
    CandidatesPrefix(Ties(kept, SimilarityOf, k), Ties(all, SimilarityOf, k));
  }

  /** The candidates of the pairs whose similarity is `k`, in order. */
  function CandidatesScoring(scored: seq<Scored>, k: real): seq<Candidate> {
    Candidates(Ties(scored, SimilarityOf, k))
  }

  lemma {:induction false} CandidatesPrefix(a: seq<Scored>, b: seq<Scored>)
    requires a <= b
    ensures Candidates(a) <= Candidates(b)
  {
    assert Candidates(a) == Candidates(b)[..|a|];
  }

  lemma CandidatesConcat(a: seq<Scored>, b: seq<Scored>)
    ensures Candidates(a + b) == Candidates(a) + Candidates(b)
  {
  }

  /** Taking the candidates of the pairs keeps multiset inclusion: pairs
      drawn from a list without duplication give candidates drawn from its
      candidates without duplication. */
  lemma {:induction false} CandidatesWithin(xs: seq<Scored>, ys: seq<Scored>)
    requires multiset(xs) <= multiset(ys)
    ensures multiset(Candidates(xs)) <= multiset(Candidates(ys))
    decreases |xs|
  {
    if |xs| > 0 {
      var x := xs[0];
      assert x in multiset(ys);
      var i :| 0 <= i < |ys| && ys[i] == x;
      var a, b := ys[..i], ys[i + 1..];
      assert ys == a + ([x] + b) && multiset(a + b) == multiset(ys) - multiset{x} by {
        MultisetOfSplit(ys, a, x, b, a + b);
      }
      assert multiset(xs[1..]) <= multiset(a + b) by {
        MultisetOfSplit(xs, [], x, xs[1..], xs[1..]);
      }
      CandidatesWithin(xs[1..], a + b);
      CandidatesRemove(a, x, b);
      CandidatesCons(xs);
    }
  }

  lemma CandidatesCons(xs: seq<Scored>)
    requires |xs| > 0
    ensures multiset(Candidates(xs)) == multiset(Candidates(xs[1..])) + multiset{xs[0].candidate}
  {
    assert Candidates(xs) == [xs[0].candidate] + Candidates(xs[1..]);
  }

  /** Removing one pair removes exactly its candidate. */
  lemma CandidatesRemove(a: seq<Scored>, y: Scored, b: seq<Scored>)
    ensures multiset(Candidates(a + ([y] + b))) == multiset(Candidates(a + b)) + multiset{y.candidate}
  {
    CandidatesConcat(a, [y] + b);
    CandidatesConcat([y], b);
    CandidatesConcat(a, b);
    MultisetOfSplit(Candidates(a + ([y] + b)), Candidates(a), y.candidate, Candidates(b), Candidates(a + b));
  }

  lemma MultisetOfSplit<T>(whole: seq<T>, a: seq<T>, x: T, b: seq<T>, rest: seq<T>)
    requires whole == a + ([x] + b) && rest == a + b
    ensures multiset(whole) == multiset(rest) + multiset{x}
    ensures multiset(rest) == multiset(whole) - multiset{x}
  {
  }

  /** The scan pairs each candidate at most once. */
  lemma {:induction false} ScoreAllWithin(cos: (Vector, Vector) -> real, query: Vector, candidates: seq<Candidate>)
    requires ScoreAll(cos, query, candidates).Ok?
    ensures multiset(Candidates(ScoreAll(cos, query, candidates).value)) <= multiset(candidates)
  {
    if |candidates| > 0 {
      var c := candidates[0];
      assert candidates == [c] + candidates[1..];
      ScoreAllWithin(cos, query, candidates[1..]);
      if Considered(c) {
        CandidatesConcat([Scored(c, Similarity(cos, query, c))], ScoreAll(cos, query, candidates[1..]).value);
      }
    }
  }

  /** With a genuine cosine, a candidate whose vector equals a non-zero
      query has similarity 1, so it reaches any threshold up to 1. */
  lemma SelfMatchQualifies(cos: (Vector, Vector) -> real, query: Vector, c: Candidate)
    requires IsCosine(cos)
    requires NonZero(query) && c.resumeVector == Some(query)
    ensures Considered(c) && !Raises(cos, query, c)
    ensures Similarity(cos, query, c) == 1.0
  {
  }

  /** A candidate whose vector equals the query is returned whenever the
      limit leaves room for every candidate reaching the threshold. */
  lemma SelfMatchReturned(cos: (Vector, Vector) -> real, query: Vector, candidates: seq<Candidate>, limit: int, threshold: real, c: Candidate)
    requires IsCosine(cos)
    requires NonZero(query) && c in candidates && c.resumeVector == Some(query)
    requires threshold <= 1.0
    requires SearchScored(cos, query, candidates, limit, threshold).Ok?
    requires limit >= |AtLeast(ScoreAll(cos, query, candidates).value, threshold)|
    ensures SearchBySkills(cos, query, candidates, limit, threshold).Ok?
    ensures c in SearchBySkills(cos, query, candidates, limit, threshold).value
  {
    var ss := SearchScored(cos, query, candidates, limit, threshold).value;
    var i := SelfPairSelected(cos, query, candidates, limit, threshold, c);
    assert Candidates(ss)[i] == c;
  }

  /** The position of the candidate's own pair in the scored search. */
  lemma SelfPairSelected(cos: (Vector, Vector) -> real, query: Vector, candidates: seq<Candidate>, limit: int, threshold: real, c: Candidate)
      returns (i: nat)
    requires IsCosine(cos)
    requires NonZero(query) && c in candidates && c.resumeVector == Some(query)
    requires threshold <= 1.0
    requires SearchScored(cos, query, candidates, limit, threshold).Ok?
    requires limit >= |AtLeast(ScoreAll(cos, query, candidates).value, threshold)|
    ensures i < |SearchScored(cos, query, candidates, limit, threshold).value|
    ensures SearchScored(cos, query, candidates, limit, threshold).value[i].candidate == c
  {
    SelfMatchQualifies(cos, query, c);
    var pair := Scored(c, Similarity(cos, query, c));
    var kept := AtLeast(ScoreAll(cos, query, candidates).value, threshold);
    assert pair in kept;
    SelectAll(kept, SimilarityOf, limit);
    var ss := SearchScored(cos, query, candidates, limit, threshold).value;
    assert ss == SelectTop(kept, SimilarityOf, limit);
    assert pair in multiset(ss);
    i :| 0 <= i < |ss| && ss[i] == pair;
  }
}

=== FILE: experience.dfy ===
/** The experience score: a step function of the gap, in years, between the
    candidate's experience and the required experience. The search and the
    ranking handlers carry identical copies of it. */
module Experience {
  import opened Records

  /** Python's `abs(a - b)`. */
  function Gap(a: real, b: real): (g: real)
    ensures g >= 0.0
    ensures g == 0.0 <==> a == b
    ensures a - b == g || b - a == g
  {
    if a >= b then a - b else b - a
  }

  /** The score of a gap: 1.0 for none, then 0.9, 0.7, 0.5 and 0.3 for gaps
      up to 1, 2, 3 and 4 years, and 0.1 beyond. */
  function GapScore(gap: real): (r: real)
    requires gap >= 0.0
    ensures 0.1 <= r <= 1.0
    ensures r == 1.0 <==> gap == 0.0
  {
    if gap == 0.0 then 1.0
    else if gap <= 1.0 then 0.9
    else if gap <= 2.0 then 0.7
    else if gap <= 3.0 then 0.5
    else if gap <= 4.0 then 0.3
    else 0.1
  }

  /** `calculate_experience_match`: 0 when either side is missing, otherwise
      the score of the gap, which is at least 0.1 and is 1.0 exactly when the
      two values agree. */
  function ExperienceMatch(candidate: Option<real>, required: Option<real>): (r: real)
    ensures candidate.None? || required.None? ==> r == 0.0
    ensures candidate.Some? && required.Some? ==> 0.1 <= r <= 1.0
    ensures candidate.Some? && required.Some? ==> (r == 1.0 <==> candidate.value == required.value)
  {
    if candidate.None? || required.None? then 0.0
    else GapScore(Gap(candidate.value, required.value))
  }

  /** A wider gap never scores higher. */
  lemma GapScoreMonotone(g1: real, g2: real)
    requires 0.0 <= g1 <= g2
    ensures GapScore(g2) <= GapScore(g1)
  {
  }

  /** Swapping the candidate's and the required experience changes nothing. */
  lemma ExperienceMatchSymmetric(a: Option<real>, b: Option<real>)
    ensures ExperienceMatch(a, b) == ExperienceMatch(b, a)
  {
  }

  /** Of two present pairs, the one further apart scores no higher. */
  lemma ExperienceMatchMonotone(c1: real, r1: real, c2: real, r2: real)
    requires Gap(c1, r1) <= Gap(c2, r2)
    ensures ExperienceMatch(Some(c2), Some(r2)) <= ExperienceMatch(Some(c1), Some(r1))
  {
    GapScoreMonotone(Gap(c1, r1), Gap(c2, r2));
  }

  /** The step table over whole intervals of the gap: 1.0 for none, 0.9 on
      (0, 1], 0.7 on (1, 2], 0.5 on (2, 3], 0.3 on (3, 4] and 0.1 beyond, so
      each boundary gap still gets the higher score. */
  lemma ExperienceMatchSteps(c: real, req: real)
    ensures Gap(c, req) == 0.0 ==> ExperienceMatch(Some(c), Some(req)) == 1.0
    ensures 0.0 < Gap(c, req) <= 1.0 ==> ExperienceMatch(Some(c), Some(req)) == 0.9
    ensures 1.0 < Gap(c, req) <= 2.0 ==> ExperienceMatch(Some(c), Some(req)) == 0.7
    ensures 2.0 < Gap(c, req) <= 3.0 ==> ExperienceMatch(Some(c), Some(req)) == 0.5
    ensures 3.0 < Gap(c, req) <= 4.0 ==> ExperienceMatch(Some(c), Some(req)) == 0.3
    ensures 4.0 < Gap(c, req) ==> ExperienceMatch(Some(c), Some(req)) == 0.1
  {
  }
}

=== FILE: location.dfy ===
/** The fuzzy location matcher: both strings are split on commas, each piece
    is trimmed and lower-cased, every query segment takes its best score
    against the candidate segments, and the result is the mean of those best
    scores. A segment pair scores 1.0 when equal, 0.9 when one contains the
    other, and otherwise the fraction of aligned positions holding the same
    character, counted against the longer segment. */
module LocationMatch {
  import opened Numeric

  /** Python's `str.split(sep)` with an explicit separator: always at least
      one piece, and no piece contains the separator. */
  function Split(s: string, sep: char): (parts: seq<string>)
    ensures |parts| >= 1
    ensures forall p :: p in parts ==> sep !in p
  {
    if |s| == 0 then [""]
    else
      var rest := Split(s[1..], sep);
      if s[0] == sep then [""] + rest
      else
        assert rest[0] in rest;
        assert forall p :: p in rest[1..] ==> p in rest;
        [[s[0]] + rest[0]] + rest[1..]
  }

  /** `sep.join(parts)`, the inverse of Split. */
  function Join(parts: seq<string>, sep: char): string
    requires |parts| >= 1
  {
    if |parts| == 1 then parts[0] else parts[0] + [sep] + Join(parts[1..], sep)
  }

  lemma JoinExtendFirst(c: char, parts: seq<string>, sep: char)
    requires |parts| >= 1
    ensures Join([[c] + parts[0]] + parts[1..], sep) == [c] + Join(parts, sep)
  {
    var moved := [[c] + parts[0]] + parts[1..];
    assert moved[1..] == parts[1..];
  }

  /** Joining the pieces of a split gives back the original string. */
  lemma {:induction false} JoinSplit(s: string, sep: char)
    ensures Join(Split(s, sep), sep) == s
  {
    if |s| > 0 {
      var rest := Split(s[1..], sep);
      JoinSplit(s[1..], sep);
      if s[0] == sep {
        assert ([""] + rest)[1..] == rest;
      } else {
        JoinExtendFirst(s[0], rest, sep);
      }
      assert s == [s[0]] + s[1..];
    }
  }

  /** Splitting a string with no separator in front of more text. */
  lemma {:induction false} SplitPiece(w: string, t: string, sep: char)
    requires sep !in w
    ensures Split(w + t, sep) == [w + Split(t, sep)[0]] + Split(t, sep)[1..]
  {
    if |w| > 0 {
      SplitPiece(w[1..], t, sep);
      assert (w + t)[1..] == w[1..] + t;
      assert (w + t)[0] == w[0];
      assert [w[0]] + (w[1..] + Split(t, sep)[0]) == w + Split(t, sep)[0];
    } else {
      var parts := Split(t, sep);
      assert w + t == t && w + parts[0] == parts[0];
      assert parts == [parts[0]] + parts[1..];
    }
  }

  /** Splitting pieces that were joined gives back the pieces, provided none
      of them contains the separator. */
  lemma {:induction false} SplitJoin(parts: seq<string>, sep: char)
    requires |parts| >= 1
    requires forall p :: p in parts ==> sep !in p
    ensures Split(Join(parts, sep), sep) == parts
  {
    if |parts| == 1 {
      SplitPiece(parts[0], "", sep);
      assert Split("", sep) == [""];
      assert parts[0] + "" == parts[0];
      assert parts == [parts[0]];
    } else {
      var tail := Join(parts[1..], sep);
      assert forall p :: p in parts[1..] ==> p in parts;
      SplitJoin(parts[1..], sep);
      assert Split([sep] + tail, sep) == [""] + Split(tail, sep) by {
        assert ([sep] + tail)[1..] == tail;
      }
      SplitPiece(parts[0], [sep] + tail, sep);
      var x := Split([sep] + tail, sep);
      assert x[0] == "" && x[1..] == parts[1..];
      assert parts[0] + x[0] == parts[0];
      assert parts[0] + [sep] + tail == parts[0] + ([sep] + tail);
      assert Join(parts, sep) == parts[0] + [sep] + tail;
      assert parts == [parts[0]] + parts[1..];
    }
  }

  /** The characters Python's `str.strip()` removes (`str.isspace`). */
  predicate IsSpace(c: char) {
    || ('\U{9}' <= c <= '\U{D}') || ('\U{1C}' <= c <= '\U{20}')
    || c == '\U{85}' || c == '\U{A0}' || c == '\U{1680}'
    || ('\U{2000}' <= c <= '\U{200A}') || c == '\U{2028}' || c == '\U{2029}'
    || c == '\U{202F}' || c == '\U{205F}' || c == '\U{3000}'
  }

  /** The number of whitespace characters s starts with. */
  function LeadingSpaces(s: string): (n: nat)
    ensures n <= |s|
    ensures forall k :: 0 <= k < n ==> IsSpace(s[k])
    ensures n < |s| ==> !IsSpace(s[n])
  {
    if |s| == 0 || !IsSpace(s[0]) then 0 else 1 + LeadingSpaces(s[1..])
  }

  /** The number of whitespace characters s ends with. */
  function TrailingSpaces(s: string): (n: nat)
    ensures n <= |s|
    ensures forall k :: |s| - n <= k < |s| ==> IsSpace(s[k])
    ensures n < |s| ==> !IsSpace(s[|s| - n - 1])
  {
    if |s| == 0 || !IsSpace(s[|s| - 1]) then 0
    else
      var n := TrailingSpaces(s[..|s| - 1]);
      assert forall k :: |s| - 1 - n <= k < |s| - 1 ==> s[..|s| - 1][k] == s[k];
      1 + n
  }

  /** Python's `str.strip()`: the slice of s that starts after its leading
      whitespace and is followed only by whitespace; it neither starts nor
      ends with whitespace itself. */
  function Strip(s: string): (r: string)
    ensures LeadingSpaces(s) + |r| <= |s|
    ensures r == s[LeadingSpaces(s)..LeadingSpaces(s) + |r|]
    ensures forall k :: LeadingSpaces(s) + |r| <= k < |s| ==> IsSpace(s[k])
    ensures |r| > 0 ==> !IsSpace(r[0]) && !IsSpace(r[|r| - 1])
  {
    var i := LeadingSpaces(s);
    var rest := s[i..];
    var n := TrailingSpaces(rest);
    var r := rest[..|rest| - n];
    assert forall k :: i + |r| <= k < |s| ==> s[k] == rest[k - i];
    assert |r| > 0 ==> r[0] == s[i] && r[|r| - 1] == rest[|rest| - n - 1];
    assert r == s[i..i + |r|];
    r
  }

  /** Python's `str.lower()` on ASCII letters; other characters are kept. */
  function LowerChar(c: char): char {
    if 'A' <= c <= 'Z' then (c as int + 32) as char else c
  }

  function Lower(s: string): (r: string)
    ensures |r| == |s|
    ensures forall k :: 0 <= k < |s| ==> r[k] == LowerChar(s[k])
  {
    if |s| == 0 then "" else [LowerChar(s[0])] + Lower(s[1..])
  }

  /** `q.strip().lower()` for every comma-separated piece. */
  function Normalize(parts: seq<string>): (r: seq<string>)
    ensures |r| == |parts|
    ensures forall k :: 0 <= k < |parts| ==> r[k] == Lower(Strip(parts[k]))
  {
    if |parts| == 0 then [] else [Lower(Strip(parts[0]))] + Normalize(parts[1..])
  }

  /** The normalised segments of a location string; never empty. */
  function Segments(s: string): (r: seq<string>)
    ensures |r| >= 1
  {
    Normalize(Split(s, ','))
  }

  /** Python's `a in b` on strings. */
  predicate IsSubstring(a: string, b: string) {
    exists k :: 0 <= k <= |b| && a <= b[k..]
  }

  /** Positions, counted from the start, where a and b hold the same
      character (`zip` stops at the shorter one). All positions of a match
      exactly when a is a prefix of b. */
  function Matches(a: string, b: string): (n: nat)
    ensures n <= |a| && n <= |b|
    ensures |a| <= |b| ==> (n == |a| <==> a <= b)
  {
    if |a| == 0 || |b| == 0 then 0
    else
      var rest := Matches(a[1..], b[1..]);
      assert a <= b <==> a[0] == b[0] && a[1..] <= b[1..];
      (if a[0] == b[0] then 1 else 0) + rest
  }

  lemma RatioWithin(m: nat, n: nat)
    requires m <= n && n > 0
    ensures 0.0 <= m as real / n as real <= 1.0
    ensures m as real / n as real == 1.0 ==> m == n
  {
  }

  /** The score of one query segment against one candidate segment. It is
      1.0 exactly on equal segments and always in [0, 1]. */
  function SegmentSimilarity(q: string, c: string): (r: real)
    ensures 0.0 <= r <= 1.0
    ensures r == 1.0 <==> q == c
  {
    if q == c then 1.0
    else if IsSubstring(q, c) || IsSubstring(c, q) then 0.9
    else
      // `sorted([q, c], key=len)` is stable, so q counts as the shorter on a tie
      var shorter := if |c| < |q| then c else q;
      var longer := if |c| < |q| then q else c;
      if |longer| == 0 then 0.0
      else
        var m := Matches(shorter, longer);
        RatioWithin(m, |longer|);
        assert m < |longer|;
        m as real / |longer| as real
  }

  /** Two different segments, one inside the other, score 0.9. */
  lemma SubstringSegmentScore(q: string, c: string)
    requires q != c && (IsSubstring(q, c) || IsSubstring(c, q))
    ensures SegmentSimilarity(q, c) == 0.9
  {
  }

  /** Two segments neither of which contains the other score the share of
      positions where the shorter one (q on equal lengths) agrees with the
      longer one, which is never empty here and never agrees everywhere. */
  lemma RatioSegmentScore(q: string, c: string)
    requires !IsSubstring(q, c) && !IsSubstring(c, q)
    ensures var longer := if |c| < |q| then q else c;
            var shorter := if |c| < |q| then c else q;
            |longer| > 0 && SegmentSimilarity(q, c) == Matches(shorter, longer) as real / |longer| as real
    ensures SegmentSimilarity(q, c) < 1.0
  {
    assert q <= q[0..];
    assert IsSubstring(q, q);
    assert "" <= c[0..];
    assert IsSubstring("", c);
  }

  /** An empty segment is contained in every other one. */
  lemma EmptySegmentScore(c: string)
    requires c != ""
    ensures SegmentSimilarity("", c) == 0.9
  {
    assert "" <= c[0..];
    assert IsSubstring("", c);
  }

  /** Scores of one query segment against every candidate segment. */
  function SegmentScores(q: string, cs: seq<string>): (r: seq<real>)
    ensures |r| == |cs|
    ensures forall k :: 0 <= k < |cs| ==> r[k] == SegmentSimilarity(q, cs[k])
  {
    if |cs| == 0 then [] else [SegmentSimilarity(q, cs[0])] + SegmentScores(q, cs[1..])
  }

  /** The best score of q over the candidate segments (0 when there are none). */
  function BestScore(q: string, cs: seq<string>): (r: real)
    ensures 0.0 <= r <= 1.0
    ensures r == 1.0 <==> q in cs
  {
    if |cs| == 0 then 0.0
    else
      var scores := SegmentScores(q, cs);
      var r := MaxOf(scores);
      assert forall k :: 0 <= k < |cs| ==> 0.0 <= scores[k] <= 1.0;
      assert r == 1.0 <==> q in cs by {
        if q in cs {
          var k :| 0 <= k < |cs| && cs[k] == q;
          assert scores[k] == 1.0;
        }
        if r == 1.0 {
          var k :| 0 <= k < |scores| && scores[k] == r;
          assert cs[k] == q;
        }
      }
      r
  }

  /** `max_similarities`: one best score per query segment. */
  function BestScores(qs: seq<string>, cs: seq<string>): (r: seq<real>)
    ensures |r| == |qs|
    ensures forall k :: 0 <= k < |qs| ==> r[k] == BestScore(qs[k], cs)
  {
    if |qs| == 0 then [] else [BestScore(qs[0], cs)] + BestScores(qs[1..], cs)
  }

  /** The location score. Either string empty gives 0; otherwise the mean of
      the query segments' best scores, which lies in [0, 1]. */
  function Match(query: string, candidate: string): (r: real)
    ensures 0.0 <= r <= 1.0
    ensures query == "" || candidate == "" ==> r == 0.0
  {
    if |query| == 0 || |candidate| == 0 then 0.0
    else
      var qs, cs := Segments(query), Segments(candidate);
      var best := BestScores(qs, cs);
      assert |best| > 0 && forall k :: 0 <= k < |best| ==> 0.0 <= best[k] <= 1.0 by {
        assert forall k :: 0 <= k < |qs| ==> best[k] == BestScore(qs[k], cs);
      }
      MeanAtLeast(best, 0.0);
      MeanAtMost(best, 1.0);
      Mean(best)
  }

  /** A location scores 1.0 exactly when every query segment appears, after
      trimming and lower-casing, among the candidate's segments. */
  lemma MatchFullIff(query: string, candidate: string)
    requires query != "" && candidate != ""
    ensures Match(query, candidate) == 1.0 <==>
              forall x :: x in Segments(query) ==> x in Segments(candidate)
  {
    var qs, cs := Segments(query), Segments(candidate);
    var best := BestScores(qs, cs);
    MeanAtCeiling(best, 1.0);
    assert (forall k :: 0 <= k < |best| ==> best[k] == 1.0) <==> (forall x :: x in qs ==> x in cs) by {
      if forall k :: 0 <= k < |best| ==> best[k] == 1.0 {
        forall x | x in qs
          ensures x in cs
        {
          var k :| 0 <= k < |qs| && qs[k] == x;
          assert best[k] == 1.0;
        }
      }
      if forall x :: x in qs ==> x in cs {
        forall k | 0 <= k < |best|
          ensures best[k] == 1.0
        {
          assert qs[k] in qs;
        }
      }
    }
  }

  /** Two identical non-empty locations score exactly 1.0. */
  lemma MatchSelf(s: string)
    requires s != ""
    ensures Match(s, s) == 1.0
  {
    MatchFullIff(s, s);
  }

  /** A piece with no comma, no surrounding whitespace and no upper-case
      letter is its own only segment. */
  lemma SingleSegment(s: string)
    requires ',' !in s
    requires |s| > 0 && !IsSpace(s[0]) && !IsSpace(s[|s| - 1])
    requires forall k :: 0 <= k < |s| ==> !('A' <= s[k] <= 'Z')
    ensures Segments(s) == [s]
  {
    SplitJoin([s], ',');
    assert Split(s, ',') == [s];
    assert Strip(s) == s;
    assert Lower(s) == s;
  }

  /** A dropped letter is scored by aligned positions only: "austn" agrees
      with "austin" in its first four characters, out of six. */
  lemma MisspelledSegment()
    ensures SegmentSimilarity("austin", "austn") == 4.0 / 6.0
  {
    assert !IsSubstring("austin", "austn");
    assert !IsSubstring("austn", "austin") by {
      forall k | 0 <= k <= 6
        ensures !("austn" <= "austin"[k..])
      {
        if k == 0 {
          assert "austin"[4] != "austn"[4];
        } else if k == 1 {
          assert "austin"[1] != "austn"[0];
        } else {
          assert |"austin"[k..]| < 5;
        }
      }
    }
    assert Matches("austn", "austin") == 4;
  }

  /** Two single-segment locations score as their segments do. */
  lemma SingleSegmentMatch(query: string, candidate: string)
    requires query != "" && candidate != ""
    requires Segments(query) == [query] && Segments(candidate) == [candidate]
    ensures Match(query, candidate) == SegmentSimilarity(query, candidate)
  {
    var x := SegmentSimilarity(query, candidate);
    assert SegmentScores(query, [candidate]) == [x];
    assert BestScore(query, [candidate]) == x;
    assert BestScores([query], [candidate]) == [x];
    assert Sum([x]) == x;
  }

  /** The same misspelling as whole location strings. The strings are
      parameters fixed by the precondition rather than literals in the
      statement, so the verifier does not unfold the matcher on the literal
      text while checking the statement itself. */
  lemma MisspelledLocation(query: string, candidate: string)
    requires query == "austin" && candidate == "austn"
    ensures Match(query, candidate) == 4.0 / 6.0
  {
    SingleSegment(query);
    SingleSegment(candidate);
    SingleSegmentMatch(query, candidate);
    MisspelledSegment();
  }
}

=== FILE: numeric.dfy ===
/** Sums, maxima and minima of lists of scores, as Python's `sum`, `max`,
    `min` and `np.mean` compute them (on unbounded reals). */
module Numeric {

  /** Python's `sum` of a list of reals. */
  function Sum(s: seq<real>): real {
    if |s| == 0 then 0.0 else s[0] + Sum(s[1..])
  }

  /** The largest element of a non-empty list. */
  function MaxOf(s: seq<real>): (m: real)
    requires |s| > 0
    ensures m in s
    ensures forall i :: 0 <= i < |s| ==> s[i] <= m
  {
    if |s| == 1 then s[0]
    else
      var rest := MaxOf(s[1..]);
      if s[0] >= rest then s[0] else rest
  }

  /** The smallest element of a non-empty list. */
  function MinOf(s: seq<real>): (m: real)
    requires |s| > 0
    ensures m in s
    ensures forall i :: 0 <= i < |s| ==> m <= s[i]
  {
    if |s| == 1 then s[0]
    else
      var rest := MinOf(s[1..]);
      if s[0] <= rest then s[0] else rest
  }

  function Mean(s: seq<real>): real
    requires |s| > 0
  {
    Sum(s) / |s| as real
  }

  /** A sum of values at most hi is at most |s|·hi. */
  lemma {:induction false} SumAtMost(s: seq<real>, hi: real)
    requires forall i :: 0 <= i < |s| ==> s[i] <= hi
    ensures Sum(s) <= hi * |s| as real
  {
    if |s| > 0 {
      SumAtMost(s[1..], hi);
    }
  }

  /** A sum of values at least lo is at least |s|·lo. */
  lemma {:induction false} SumAtLeast(s: seq<real>, lo: real)
    requires forall i :: 0 <= i < |s| ==> lo <= s[i]
    ensures lo * |s| as real <= Sum(s)
  {
    if |s| > 0 {
      SumAtLeast(s[1..], lo);
    }
  }

  /** A sum of values bounded by hi, one of them strictly below, stays strictly below |s|·hi. */
  lemma {:induction false} SumBelowCeiling(s: seq<real>, hi: real, k: int)
    requires forall i :: 0 <= i < |s| ==> s[i] <= hi
    requires 0 <= k < |s| && s[k] < hi
    ensures Sum(s) < hi * |s| as real
  {
    var rest := s[1..];
    if k == 0 {
      SumAtMost(rest, hi);
    } else {
      assert rest[k - 1] == s[k];
      SumBelowCeiling(rest, hi, k - 1);
    }
  }

  /** A sum of values bounded by hi reaches |s|·hi exactly when every value is hi. */
  lemma SumAtCeiling(s: seq<real>, hi: real)
    requires forall i :: 0 <= i < |s| ==> s[i] <= hi
    ensures Sum(s) == hi * |s| as real <==> forall i :: 0 <= i < |s| ==> s[i] == hi
  {
    if forall i :: 0 <= i < |s| ==> s[i] == hi {
      SumAtLeast(s, hi);
      SumAtMost(s, hi);
    } else {
      var k :| 0 <= k < |s| && s[k] != hi;
      SumBelowCeiling(s, hi, k);
    }
  }

  /** A mean of values at least lo is at least lo. */
  lemma MeanAtLeast(s: seq<real>, lo: real)
    requires |s| > 0
    requires forall i :: 0 <= i < |s| ==> lo <= s[i]
    ensures lo <= Mean(s)
  {
    SumAtLeast(s, lo);
    DivideAtLeast(lo, Sum(s), |s| as real);
  }

  /** A mean of values at most hi is at most hi. */
  lemma MeanAtMost(s: seq<real>, hi: real)
    requires |s| > 0
    requires forall i :: 0 <= i < |s| ==> s[i] <= hi
    ensures Mean(s) <= hi
  {
    SumAtMost(s, hi);
    DivideAtMost(hi, Sum(s), |s| as real);
  }

  lemma DivideAtLeast(lo: real, total: real, n: real)
    requires n > 0.0 && lo * n <= total
    ensures lo <= total / n
  {
  }

  lemma DivideAtMost(hi: real, total: real, n: real)
    requires n > 0.0 && total <= hi * n
    ensures total / n <= hi
  {
  }

  /** The mean of a non-empty list lies between its minimum and its maximum. */
  lemma MeanBetween(s: seq<real>)
    requires |s| > 0
    ensures MinOf(s) <= Mean(s) <= MaxOf(s)
  {
    MeanAtLeast(s, MinOf(s));
    MeanAtMost(s, MaxOf(s));
  }

  /** The mean of values bounded by hi equals hi exactly when every value is hi. */
  lemma MeanAtCeiling(s: seq<real>, hi: real)
    requires |s| > 0
    requires forall i :: 0 <= i < |s| ==> s[i] <= hi
    ensures Mean(s) == hi <==> forall i :: 0 <= i < |s| ==> s[i] == hi
  {
    var n := |s| as real;
    SumAtCeiling(s, hi);
    assert Mean(s) * n == Sum(s);
    assert Mean(s) == hi <==> Sum(s) == hi * n;
  }
}

=== FILE: ordering.dfy ===
/** Python's `sorted(xs, key=k, reverse=True)[:limit]`, the selection policy
    shared by every search in the engine: a stable descending sort followed by
    a slice. Stability is stated through tie classes: for every key value, the
    elements carrying that key appear in the output in their input order. */
module Ordering {

  /** Non-increasing by key. */
  ghost predicate SortedDesc<T>(s: seq<T>, key: T -> real) {
    forall i, j :: 0 <= i < j < |s| ==> key(s[i]) >= key(s[j])
  }

  /** The elements of s whose key is k, in the order they occur in s. */
  function Ties<T>(s: seq<T>, key: T -> real, k: real): seq<T> {
    if |s| == 0 then []
    else (if key(s[0]) == k then [s[0]] else []) + Ties(s[1..], key, k)
  }

  /** Inserts x in front of the first element whose key is not above key(x),
      so that x precedes every element of s that ties with it. */
  function Insert<T>(x: T, s: seq<T>, key: T -> real): (r: seq<T>)
    requires SortedDesc(s, key)
    ensures SortedDesc(r, key)
    ensures multiset(r) == multiset(s) + multiset{x}
    ensures |r| == |s| + 1
    ensures r[0] == x || (|s| > 0 && r[0] == s[0])
  {
    if |s| == 0 || key(x) >= key(s[0]) then
      ConsSorted(x, s, key);
      [x] + s
    else
      var tail := Insert(x, s[1..], key);
      ConsSorted(s[0], tail, key);
      assert s == [s[0]] + s[1..];
      [s[0]] + tail
  }

  /** Putting an element no smaller than the head in front keeps a list sorted. */
  lemma ConsSorted<T>(h: T, t: seq<T>, key: T -> real)
    requires SortedDesc(t, key)
    requires |t| == 0 || key(h) >= key(t[0])
    ensures SortedDesc([h] + t, key)
  {
    var r := [h] + t;
    forall i, j | 0 <= i < j < |r|
      ensures key(r[i]) >= key(r[j])
    {
      if i == 0 && j > 1 {
        assert key(t[0]) >= key(t[j - 1]);
      }
    }
  }

  /** Stable descending insertion sort: the head of the input is inserted
      ahead of its ties into the sorted tail. */
  function SortDesc<T>(s: seq<T>, key: T -> real): (r: seq<T>)
    ensures SortedDesc(r, key)
    ensures multiset(r) == multiset(s)
    ensures |r| == |s|
  {
    if |s| == 0 then []
    else
      assert s == [s[0]] + s[1..];
      Insert(s[0], SortDesc(s[1..], key), key)
  }

  /** How many of `n` elements Python's `[:limit]` keeps: `min(limit, n)`
      for a non-negative limit, `n + limit` (but not below 0) for a negative
      one. */
  function SliceLength(n: nat, limit: int): nat {
    if 0 <= limit then (if limit < n then limit else n)
    else if n + limit > 0 then n + limit else 0
  }

  /** Python's `s[:limit]`: a non-negative limit keeps the first `limit`
      elements, a negative one drops `-limit` elements from the end. */
  function Prefix<T>(s: seq<T>, limit: int): (r: seq<T>)
    ensures r <= s
    ensures |r| == SliceLength(|s|, limit)
  {
    if 0 <= limit then
      (if limit < |s| then s[..limit] else s)
    else
      (if |s| + limit > 0 then s[..|s| + limit] else [])
  }

  /** The whole selection step: stable descending sort, then slice. The
      result is sorted, drawn from the input without duplication, no kept
      element scores below a dropped one, ties stay in input order, and the
      length is what a Python slice gives. */
  function SelectTop<T>(s: seq<T>, key: T -> real, limit: int): (r: seq<T>)
    ensures SortedDesc(r, key)
    ensures multiset(r) <= multiset(s)
    ensures forall x, y :: x in r && y in multiset(s) - multiset(r) ==> key(y) <= key(x)
    ensures forall k :: Ties(r, key, k) <= Ties(s, key, k)
    ensures |r| == SliceLength(|s|, limit)
  {
    var sorted := SortDesc(s, key);
    var r := Prefix(sorted, limit);
    PrefixOfSorted(sorted, |r|, key);
    assert r == sorted[..|r|];
    forall k
      ensures Ties(r, key, k) <= Ties(s, key, k)
    {
      PrefixTies(sorted, |r|, key, k);
      SortDescStable(s, key, k);
    }
    r
  }

  /** Everything selected comes from the input. */
  lemma SelectedFromInput<T>(s: seq<T>, key: T -> real, limit: int, x: T)
    requires x in SelectTop(s, key, limit)
    ensures x in s
  {
    assert x in multiset(SelectTop(s, key, limit));
  }

  /** An input element that was not selected scores no higher than any
      selected one. */
  lemma SelectedAreBest<T>(s: seq<T>, key: T -> real, limit: int, x: T, y: T)
    requires x in SelectTop(s, key, limit)
    requires y in s && y !in SelectTop(s, key, limit)
    ensures key(y) <= key(x)
  {
    assert y in multiset(s) - multiset(SelectTop(s, key, limit));
  }

  /** A prefix of a sorted list is sorted, is part of the list, and no element
      it leaves out has a higher key than one it keeps. */
  lemma PrefixOfSorted<T>(s: seq<T>, n: nat, key: T -> real)
    requires SortedDesc(s, key)
    requires n <= |s|
    ensures SortedDesc(s[..n], key)
    ensures multiset(s[..n]) <= multiset(s)
    ensures forall x, y :: x in s[..n] && y in multiset(s) - multiset(s[..n]) ==> key(y) <= key(x)
  {
    RemovePrefix(s, n);
    forall x, y | x in s[..n] && y in multiset(s) - multiset(s[..n])
      ensures key(y) <= key(x)
    {
      PrefixAbove(s, n, key, x, y);
    }
  }

  /** In a sorted list, an element before position n is no lower than one
      from position n on. */
  lemma PrefixAbove<T>(s: seq<T>, n: nat, key: T -> real, x: T, y: T)
    requires SortedDesc(s, key)
    requires n <= |s| && x in s[..n] && y in s[n..]
    ensures key(y) <= key(x)
  {
    var i :| 0 <= i < n && s[..n][i] == x;
    var j :| 0 <= j < |s| - n && s[n..][j] == y;
    assert s[i] == x && s[n + j] == y;
  }

  /** A limit no smaller than the list keeps every element. */
  lemma SelectAll<T>(s: seq<T>, key: T -> real, limit: int)
    requires limit >= |s|
    ensures multiset(SelectTop(s, key, limit)) == multiset(s)
  {
    assert Prefix(SortDesc(s, key), limit) == SortDesc(s, key);
  }

  /** Splitting off the head of the first of two concatenated lists. */
  lemma HeadOfAppend<T>(a: seq<T>, b: seq<T>)
    requires |a| > 0
    ensures a == [a[0]] + a[1..]
    ensures a + b == [a[0]] + (a[1..] + b)
  {
  }

  lemma AppendAssociates<T>(a: seq<T>, b: seq<T>, c: seq<T>)
    ensures a + (b + c) == (a + b) + c
  {
  }

  /** Taking the first n elements out of s leaves the rest of it. */
  lemma RemovePrefix<T>(s: seq<T>, n: nat)
    requires n <= |s|
    ensures multiset(s[..n]) <= multiset(s)
    ensures multiset(s) - multiset(s[..n]) == multiset(s[n..])
  {
    assert s == s[..n] + s[n..];
  }

  lemma TiesCons<T>(h: T, t: seq<T>, key: T -> real, k: real)
    ensures Ties([h] + t, key, k) == (if key(h) == k then [h] else []) + Ties(t, key, k)
  {
    assert ([h] + t)[1..] == t;
  }

  /** Inserting x adds x to the front of its own tie class and leaves every
      other tie class alone. */
  lemma {:induction false} InsertTies<T>(x: T, s: seq<T>, key: T -> real, k: real)
    requires SortedDesc(s, key)
    ensures Ties(Insert(x, s, key), key, k) == (if key(x) == k then [x] else []) + Ties(s, key, k)
  {
    if |s| == 0 || key(x) >= key(s[0]) {
      TiesCons(x, s, key, k);
    } else {
      var tail := Insert(x, s[1..], key);
      InsertTies(x, s[1..], key, k);
      TiesCons(s[0], tail, key, k);
      TiesCons(s[0], s[1..], key, k);
      assert s == [s[0]] + s[1..];
      if key(x) == k {
        assert key(s[0]) != k;
      }
    }
  }

  /** The sort is stable: every tie class keeps its input order. */
  lemma {:induction false} SortDescStable<T>(s: seq<T>, key: T -> real, k: real)
    ensures Ties(SortDesc(s, key), key, k) == Ties(s, key, k)
  {
    if |s| > 0 {
      SortDescStable(s[1..], key, k);
      InsertTies(s[0], SortDesc(s[1..], key), key, k);
    }
  }

  /** Taking a prefix of a list keeps a prefix of each of its tie classes. */
  lemma {:induction false} PrefixTies<T>(s: seq<T>, n: nat, key: T -> real, k: real)
    requires n <= |s|
    ensures Ties(s[..n], key, k) <= Ties(s, key, k)
  {
    if n > 0 {
      assert s[..n][1..] == s[1..][..n - 1];
      PrefixTies(s[1..], n - 1, key, k);
    }
  }

  /** A sorted list has no element above its head, so any larger key has an
      empty tie class. */
  lemma {:induction false} TiesAboveHeadEmpty<T>(s: seq<T>, key: T -> real, k: real)
    requires SortedDesc(s, key)
    requires |s| > 0 && k > key(s[0])
    ensures Ties(s, key, k) == []
  {
    if |s| > 1 {
      assert key(s[1]) <= key(s[0]);
      TiesAboveHeadEmpty(s[1..], key, k);
    }
  }

  lemma HeadHasTies<T>(s: seq<T>, key: T -> real)
    ensures |s| > 0 ==> Ties(s, key, key(s[0])) != []
  {
  }

  /** Two sorted lists with the same tie classes are equal: a stable
      descending order is determined by its input alone. */
  lemma {:induction false} SortedWithSameTiesEqual<T>(a: seq<T>, b: seq<T>, key: T -> real)
    requires SortedDesc(a, key) && SortedDesc(b, key)
    requires forall k :: Ties(a, key, k) == Ties(b, key, k)
    ensures a == b
  {
    if |a| == 0 && |b| > 0 {
      HeadHasTies(b, key);
      assert false;
    } else if |a| > 0 && |b| == 0 {
      HeadHasTies(a, key);
      assert false;
    } else if |a| > 0 {
      if key(a[0]) > key(b[0]) {
        TiesAboveHeadEmpty(b, key, key(a[0]));
        assert false;
      } else if key(b[0]) > key(a[0]) {
        TiesAboveHeadEmpty(a, key, key(b[0]));
        assert false;
      } else {
        var k0 := key(a[0]);
        assert Ties(a, key, k0) == [a[0]] + Ties(a[1..], key, k0);
        assert Ties(b, key, k0) == [b[0]] + Ties(b[1..], key, k0);
        assert a[0] == b[0] by {
          assert Ties(a, key, k0)[0] == a[0];
        }
        forall k
          ensures Ties(a[1..], key, k) == Ties(b[1..], key, k)
        {
          assert Ties(a, key, k) == Ties(b, key, k);
          TiesCons(a[0], a[1..], key, k);
          TiesCons(b[0], b[1..], key, k);
          assert a == [a[0]] + a[1..];
          assert b == [b[0]] + b[1..];
          var x, y := Ties(a[1..], key, k), Ties(b[1..], key, k);
          assert Ties(a, key, k) == (if k0 == k then [a[0]] else []) + x;
          assert Ties(b, key, k) == (if k0 == k then [b[0]] else []) + y;
          if k == k0 {
            assert [a[0]] + x == [b[0]] + y;
            assert x == ([a[0]] + x)[1..];
            assert y == ([b[0]] + y)[1..];
          } else {
            assert Ties(a, key, k) == x && Ties(b, key, k) == y;
          }
        }
        SortedWithSameTiesEqual(a[1..], b[1..], key);
        assert a == [a[0]] + a[1..];
        assert b == [b[0]] + b[1..];
      }
    }
  }

  /** SortDesc is THE stable descending sort: any ordering that is sorted and
      keeps every tie class in input order is exactly its output. */
  lemma StableSortUnique<T>(s: seq<T>, t: seq<T>, key: T -> real)
    requires SortedDesc(t, key)
    requires forall k :: Ties(t, key, k) == Ties(s, key, k)
    ensures t == SortDesc(s, key)
  {
    forall k
      ensures Ties(t, key, k) == Ties(SortDesc(s, key), key, k)
    {
      SortDescStable(s, key, k);
    }
    SortedWithSameTiesEqual(t, SortDesc(s, key), key);
  }
}

=== FILE: rank.dfy ===
/** Ranking of every candidate against one job posting. Up to three criteria
    are scored (skills 0.4, experience 0.3, location 0.1; the configured
    title weight 0.2 is never used), each only when both the job and the
    candidate supply its data. Unlike the search, the total is the raw
    weighted sum, not divided by the applied weight. Candidates below the
    threshold are dropped and the rest sorted best first (stably) and cut to
    the limit. */
module Rank {
  import opened Records
  import opened Ordering
  import opened Aggregate
  import opened VectorSimilarity
  import LocationMatch
  import opened Experience
  import Search

  const SkillsWeight: real := 0.4
  const ExperienceWeight: real := 0.3
  const TitleWeight: real := 0.2
  const LocationWeight: real := 0.1

  /** The `scores` map of a ranked entry; every sub-score starts at 0.0. */
  datatype RankScores = RankScores(skills: real, experience: real, location: real)

  /** One entry of the ranking. */
  datatype RankMatch = RankMatch(candidate: Candidate, scores: RankScores, total: real)

  /** Skills count when both the job's and the candidate's vectors are
      non-empty. */
  predicate SkillsApplies(job: Job, c: Candidate) {
    PresentVector(job.jdVector) && PresentVector(c.resumeVector)
  }

  /** Experience counts when both values are truthy: a missing value, the
      blank sentinel and 0 years all leave it out. */
  predicate ExperienceApplies(job: Job, c: Candidate) {
    PresentNumber(job.requiredExperience) && PresentExperience(c.totalExperience)
  }

  /** Location counts when both sides name a non-empty location. */
  predicate LocationApplies(job: Job, c: Candidate) {
    PresentText(job.location) && PresentText(c.location)
  }

  /** The three criteria for one candidate, with the configured weights. */
  function Criteria(cos: (Vector, Vector) -> real, job: Job, c: Candidate): seq<Criterion> {
    var skills := if SkillsApplies(job, c) then ClampedCosine(cos, c.resumeVector.value, job.jdVector.value) else 0.0;
    var experience := if ExperienceApplies(job, c) then ExperienceMatch(Some(c.totalExperience.years), job.requiredExperience) else 0.0;
    var location := if LocationApplies(job, c) then LocationMatch.Match(job.location.value, c.location.value) else 0.0;
    [ Criterion(SkillsApplies(job, c), skills, SkillsWeight),
      Criterion(ExperienceApplies(job, c), experience, ExperienceWeight),
      Criterion(LocationApplies(job, c), location, LocationWeight) ]
  }

  /** Scores one candidate. A sub-score whose guard fails stays at 0.0, one
      whose guard holds is the matching similarity; the total is the weighted
      sum of the reported sub-scores and lies in [0, 0.8], because the
      title weight never contributes. */
  function Score(cos: (Vector, Vector) -> real, job: Job, c: Candidate): (r: RankMatch)
    ensures r.candidate == c
    ensures !SkillsApplies(job, c) ==> r.scores.skills == 0.0
    ensures !ExperienceApplies(job, c) ==> r.scores.experience == 0.0
    ensures !LocationApplies(job, c) ==> r.scores.location == 0.0
    ensures SkillsApplies(job, c) ==> r.scores.skills == ClampedCosine(cos, c.resumeVector.value, job.jdVector.value)
    ensures ExperienceApplies(job, c) ==> r.scores.experience == ExperienceMatch(Some(c.totalExperience.years), job.requiredExperience)
    ensures LocationApplies(job, c) ==> r.scores.location == LocationMatch.Match(job.location.value, c.location.value)
    ensures r.total == SkillsWeight * r.scores.skills + ExperienceWeight * r.scores.experience + LocationWeight * r.scores.location
    ensures 0.0 <= r.total <= SkillsWeight + ExperienceWeight + LocationWeight
  {
    var cs := Criteria(cos, job, c);
    ThreeCriteria(cs[0], cs[1], cs[2]);
    assert AppliedScoresWithin(cs, 0.0, 1.0);
    RawTotalWithin(cs);
    RankMatch(c, RankScores(cs[0].score, cs[1].score, cs[2].score), Contribution(cs))
  }

  /** The total an entry is ranked by. */
  function TotalOf(m: RankMatch): real {
    m.total
  }

  /** The `ranked_results` list: candidates reaching the threshold with their
      scores, in scan order. */
  function Scan(cos: (Vector, Vector) -> real, job: Job, candidates: seq<Candidate>, minScore: real): (r: seq<RankMatch>)
    ensures |r| <= |candidates|
    ensures forall m :: m in r ==> m.candidate in candidates && m == Score(cos, job, m.candidate) && m.total >= minScore
    ensures forall c :: c in candidates && Score(cos, job, c).total >= minScore ==> Score(cos, job, c) in r
  {
    if |candidates| == 0 then []
    else
      var c := candidates[0];
      var rest := Scan(cos, job, candidates[1..], minScore);
      assert candidates == [c] + candidates[1..];
      if Score(cos, job, c).total >= minScore then [Score(cos, job, c)] + rest else rest
  }

  /** Scanning two lists one after the other gives the two scans one after
      the other: the result keeps the candidates' order. */
  lemma {:induction false} ScanAppend(cos: (Vector, Vector) -> real, job: Job, a: seq<Candidate>, b: seq<Candidate>, minScore: real)
    ensures Scan(cos, job, a + b, minScore) == Scan(cos, job, a, minScore) + Scan(cos, job, b, minScore)
  {
    if |a| == 0 {
      assert a + b == b;
    } else {
      var c, t := a[0], a[1..];
      var entry := if Score(cos, job, c).total >= minScore then [Score(cos, job, c)] else [];
      calc {
        Scan(cos, job, a + b, minScore);
        { HeadOfAppend(a, b); }
        Scan(cos, job, [c] + (t + b), minScore);
        { ScanCons(cos, job, c, t + b, minScore); }
        entry + Scan(cos, job, t + b, minScore);
        { ScanAppend(cos, job, t, b, minScore); }
        entry + (Scan(cos, job, t, minScore) + Scan(cos, job, b, minScore));
        { AppendAssociates(entry, Scan(cos, job, t, minScore), Scan(cos, job, b, minScore)); }
        (entry + Scan(cos, job, t, minScore)) + Scan(cos, job, b, minScore);
        { HeadOfAppend(a, b); ScanCons(cos, job, c, t, minScore); }
        Scan(cos, job, a, minScore) + Scan(cos, job, b, minScore);
      }
    }
  }

  lemma ScanCons(cos: (Vector, Vector) -> real, job: Job, c: Candidate, t: seq<Candidate>, minScore: real)
    ensures Scan(cos, job, [c] + t, minScore) == (if Score(cos, job, c).total >= minScore then [Score(cos, job, c)] else []) + Scan(cos, job, t, minScore)
  {
    assert ([c] + t)[0] == c && ([c] + t)[1..] == t;
  }

  /** A single candidate is scanned into its scores when they reach the
      threshold and into nothing otherwise. */
  lemma ScanSingle(cos: (Vector, Vector) -> real, job: Job, c: Candidate, minScore: real)
    ensures Scan(cos, job, [c], minScore) == if Score(cos, job, c).total >= minScore then [Score(cos, job, c)] else []
  {
    assert [c][1..] == [];
  }

  /** The filter, sort and slice for a job that exists. Every entry is a
      candidate with its own scores and a total of at least `minScore`; the
      list is sorted best first, equal totals keep scan order, no candidate
      left out scores above one kept, and exactly as many entries remain as
      `[:limit]` leaves of the candidates reaching `minScore`. */
  function RankForJob(cos: (Vector, Vector) -> real, job: Job, candidates: seq<Candidate>, minScore: real, limit: int): (r: seq<RankMatch>)
    ensures forall m :: m in r ==> m.candidate in candidates && m == Score(cos, job, m.candidate)
    ensures forall m :: m in r ==> m.total >= minScore
    ensures SortedDesc(r, TotalOf)
    ensures multiset(r) <= multiset(Scan(cos, job, candidates, minScore))
    ensures forall k :: Ties(r, TotalOf, k) <= Ties(Scan(cos, job, candidates, minScore), TotalOf, k)
    ensures forall c, m :: c in candidates && Score(cos, job, c).total >= minScore && m in r && Score(cos, job, c) !in r ==>
              Score(cos, job, c).total <= m.total
    ensures |r| == SliceLength(|Scan(cos, job, candidates, minScore)|, limit)
  {
    var ranked := Scan(cos, job, candidates, minScore);
    var r := SelectTop(ranked, TotalOf, limit);
    forall m | m in r
      ensures m in ranked
    {
      SelectedFromInput(ranked, TotalOf, limit, m);
    }
    forall c, m | c in candidates && Score(cos, job, c).total >= minScore && m in r && Score(cos, job, c) !in r
      ensures Score(cos, job, c).total <= m.total
    {
      SelectedAreBest(ranked, TotalOf, limit, m, Score(cos, job, c));
    }
    r
  }

  /** `rank_candidates_for_job`: no entries for a missing job or an empty
      candidate list, otherwise the filtered, sorted and sliced ranking; every
      entry's total reaches the threshold and the list is sorted best first. */
  function RankCandidates(cos: (Vector, Vector) -> real, job: Option<Job>, candidates: seq<Candidate>, minScore: real, limit: int): (r: seq<RankMatch>)
    ensures job.None? || |candidates| == 0 ==> r == []
    ensures job.Some? && |candidates| > 0 ==> r == RankForJob(cos, job.value, candidates, minScore, limit)
    ensures forall m :: m in r ==> m.candidate in candidates && m.total >= minScore
    ensures SortedDesc(r, TotalOf)
    ensures 0 <= limit ==> |r| <= limit
  {
    if job.None? || |candidates| == 0 then [] else RankForJob(cos, job.value, candidates, minScore, limit)
  }

  /** A candidate that matches the job perfectly on all three criteria scores
      0.8, not 1.0: the title weight is configured but never applied. */
  lemma PerfectMatchScoresEightTenths(cos: (Vector, Vector) -> real, job: Job, c: Candidate)
    requires IsCosine(cos)
    requires job.jdVector.Some? && NonZero(job.jdVector.value) && c.resumeVector == job.jdVector
    requires PresentNumber(job.requiredExperience) && c.totalExperience == Years(job.requiredExperience.value)
    requires PresentText(job.location) && c.location == job.location
    ensures Score(cos, job, c).total == 0.8
  {
    ClampedCosineSelf(cos, job.jdVector.value);
    LocationMatch.MatchSelf(job.location.value);
  }

  /** Zero years of experience is falsy: the experience sub-score stays at 0
      although the step function would give it at least 0.1. */
  lemma ZeroYearsTreatedAsMissing(cos: (Vector, Vector) -> real, job: Job, c: Candidate)
    requires PresentNumber(job.requiredExperience)
    requires c.totalExperience == Years(0.0)
    ensures Score(cos, job, c).scores.experience == 0.0
    ensures ExperienceMatch(Some(0.0), job.requiredExperience) >= 0.1
  {
  }

  /** The ranking's location sub-score is the search's location score for a
      query naming the job's location. */
  lemma LocationAgreesWithSearch(cos: (Vector, Vector) -> real, job: Job, c: Candidate)
    ensures Score(cos, job, c).scores.location == Search.LocationScore(Search.Query(None, job.location, None, 0.0, 0), c)
  {
  }
}

=== FILE: records.dfy ===
/** Records the matching engine reads: candidate profiles and job postings as
    they come out of the relational store, plus the small wrapper types the
    rest of the model uses. Python's truthiness tests on these fields are
    spelled out as predicates so that every guard in the engine names one. */
module Records {

  /** A value that may be absent (Python's None). */
  datatype Option<+T> = None | Some(value: T)

  /** The outcome of a computation that may raise an exception. */
  datatype Result<+T> = Ok(value: T) | Err(reason: string)

  /** An embedding: a flat list of floats. */
  type Vector = seq<real>

  /** The `total_experience` column is JSON: it can hold null, the empty-string
      sentinel "", or a number of years. */
  datatype ExperienceField = Null | Blank | Years(years: real)

  /** A candidate profile row. `location` stands for
      `parsed_resume["personal_info"]["location"]` looked up with `.get`. */
  datatype Candidate = Candidate(
    id: int,
    resumeVector: Option<Vector>,
    location: Option<string>,
    totalExperience: ExperienceField)

  /** A job posting row. */
  datatype Job = Job(
    id: int,
    jdVector: Option<Vector>,
    location: Option<string>,
    requiredExperience: Option<real>)

  /** Python truthiness of an optional list: present and non-empty. */
  predicate PresentVector(v: Option<Vector>) {
    v.Some? && |v.value| > 0
  }

  /** Python truthiness of an optional string: present and non-empty. */
  predicate PresentText(s: Option<string>) {
    s.Some? && |s.value| > 0
  }

  /** Python truthiness of an optional number: present and non-zero. */
  predicate PresentNumber(x: Option<real>) {
    x.Some? && x.value != 0.0
  }

  /** Python truthiness of the experience column: only a non-zero number. */
  predicate PresentExperience(e: ExperienceField) {
    e.Years? && e.years != 0.0
  }

  /** The number the experience column hands to the step function. The blank
      sentinel cannot be subtracted from a float; the source catches that
      TypeError and scores 0, which is what None scores too. */
  function ExperienceValue(e: ExperienceField): Option<real> {
    match e
    case Years(y) => Some(y)
    case _ => None
  }
}

=== FILE: search.dfy ===
/** The multi-criteria candidate search. Each candidate is scored on up to
    three criteria (skills 0.6, location 0.2, experience 0.2). Skills and
    location count only when both the query and the candidate supply their
    data; experience counts whenever a non-zero experience is required,
    unless the candidate's column is the empty-string sentinel (a null column
    counts, with sub-score 0). The final score divides the weighted sum by the weight actually applied, so it
    is a weighted mean of the applied sub-scores. Candidates with no applied
    criterion or a score below the threshold are dropped, and the rest are
    sorted best first (stably) and cut to the limit. */
module Search {
  import opened Records
  import opened Numeric
  import opened Ordering
  import opened Aggregate
  import opened VectorSimilarity
  import LocationMatch
  import opened Experience

  const SkillsWeight: real := 0.6
  const LocationWeight: real := 0.2
  const ExperienceWeight: real := 0.2

  /** The search parameters. */
  datatype Query = Query(
    skillsVectors: Option<seq<Vector>>,
    location: Option<string>,
    requiredExperience: Option<real>,
    minScore: real,
    limit: int)

  /** The sub-scores reported for a match; a criterion that was not applied
      reports 0.0. */
  datatype SearchScores = SearchScores(skills: real, location: real, experience: real, total: real)

  /** One entry of the result list. */
  datatype SearchMatch = SearchMatch(candidate: Candidate, scores: SearchScores)

  /** Skills count when the query lists at least one vector and the candidate
      has a non-empty resume vector. */
  predicate SkillsApplies(q: Query, c: Candidate) {
    q.skillsVectors.Some? && |q.skillsVectors.value| > 0 && PresentVector(c.resumeVector)
  }

  /** Location counts when both sides name a non-empty location. */
  predicate LocationApplies(q: Query, c: Candidate) {
    PresentText(q.location) && PresentText(c.location)
  }

  /** Experience counts when a non-zero experience is required and the
      candidate's column is not the empty-string sentinel; a null column
      passes this test. */
  predicate ExperienceApplies(q: Query, c: Candidate) {
    PresentNumber(q.requiredExperience) && c.totalExperience != Blank
  }

  function SkillsScore(cos: (Vector, Vector) -> real, q: Query, c: Candidate): real {
    if SkillsApplies(q, c) then BestOfBatch(cos, q.skillsVectors.value, c.resumeVector.value) else 0.0
  }

  function LocationScore(q: Query, c: Candidate): real {
    if LocationApplies(q, c) then LocationMatch.Match(q.location.value, c.location.value) else 0.0
  }

  function ExperienceScore(q: Query, c: Candidate): real {
    if ExperienceApplies(q, c) then ExperienceMatch(ExperienceValue(c.totalExperience), q.requiredExperience) else 0.0
  }

  /** The three criteria for one candidate, with the configured weights. */
  function Criteria(cos: (Vector, Vector) -> real, q: Query, c: Candidate): seq<Criterion> {
    [ Criterion(SkillsApplies(q, c), SkillsScore(cos, q, c), SkillsWeight),
      Criterion(LocationApplies(q, c), LocationScore(q, c), LocationWeight),
      Criterion(ExperienceApplies(q, c), ExperienceScore(q, c), ExperienceWeight) ]
  }

  /** The applied sub-scores of a candidate, in criterion order. */
  function Applied(cos: (Vector, Vector) -> real, q: Query, c: Candidate): seq<real> {
    AppliedScores(Criteria(cos, q, c))
  }

  /** The weight applied to one candidate: the sum of the weights of the
      criteria whose guards hold (`total_weight`). */
  function AppliedWeightOf(q: Query, c: Candidate): real {
    (if SkillsApplies(q, c) then SkillsWeight else 0.0)
    + (if LocationApplies(q, c) then LocationWeight else 0.0)
    + (if ExperienceApplies(q, c) then ExperienceWeight else 0.0)
  }

  /** Scores one candidate. There is no score (the candidate is skipped)
      exactly when no criterion applies; otherwise each sub-score is reported,
      0.0 for the criteria that were not applied, and the total is the
      weighted sum 0.6·skills + 0.2·location + 0.2·experience divided by the
      applied weight, so it lies between the lowest and the highest applied
      sub-score. */
  function Evaluate(cos: (Vector, Vector) -> real, q: Query, c: Candidate): (r: Option<SearchScores>)
    ensures r.None? <==> !SkillsApplies(q, c) && !LocationApplies(q, c) && !ExperienceApplies(q, c)
    ensures r.Some? && !SkillsApplies(q, c) ==> r.value.skills == 0.0
    ensures r.Some? && !LocationApplies(q, c) ==> r.value.location == 0.0
    ensures r.Some? && !ExperienceApplies(q, c) ==> r.value.experience == 0.0
    ensures r.Some? && SkillsApplies(q, c) ==> r.value.skills == BestOfBatch(cos, q.skillsVectors.value, c.resumeVector.value)
    ensures r.Some? && LocationApplies(q, c) ==> r.value.location == LocationMatch.Match(q.location.value, c.location.value)
    ensures r.Some? && ExperienceApplies(q, c) ==> r.value.experience == ExperienceMatch(ExperienceValue(c.totalExperience), q.requiredExperience)
    ensures r.Some? ==> AppliedWeightOf(q, c) > 0.0
    ensures r.Some? ==>
              r.value == Normalised(r.value.skills, r.value.location, r.value.experience, AppliedWeightOf(q, c))
    ensures r.Some? ==> |Applied(cos, q, c)| > 0
    ensures r.Some? ==> MinOf(Applied(cos, q, c)) <= r.value.total <= MaxOf(Applied(cos, q, c))
  {
    var w := AppliedWeightOf(q, c);
    if w > 0.0 then
      var s, l, e := SkillsScore(cos, q, c), LocationScore(q, c), ExperienceScore(q, c);
      TotalBetweenApplied(cos, q, c);
      Some(Normalised(s, l, e, w))
    else None
  }

  /** The reported scores with the total normalised by the applied weight. */
  function Normalised(s: real, l: real, e: real, w: real): SearchScores
    requires w > 0.0
  {
    SearchScores(s, l, e, (SkillsWeight * s + LocationWeight * l + ExperienceWeight * e) / w)
  }

  /** The total of a scored candidate, written out: the weighted sum
      0.6·skills + 0.2·location + 0.2·experience of the reported sub-scores
      divided by the weight of the criteria that were applied. */
  lemma EvaluateTotal(cos: (Vector, Vector) -> real, q: Query, c: Candidate)
    requires Evaluate(cos, q, c).Some?
    ensures AppliedWeightOf(q, c) > 0.0
    ensures var r := Evaluate(cos, q, c).value;
            r.total == (SkillsWeight * r.skills + LocationWeight * r.location + ExperienceWeight * r.experience) / AppliedWeightOf(q, c)
  {
  }

  /** The weighted sum of the reported sub-scores (`total_score`). */
  function WeightedSum(cos: (Vector, Vector) -> real, q: Query, c: Candidate): real {
    SkillsWeight * SkillsScore(cos, q, c) + LocationWeight * LocationScore(q, c) + ExperienceWeight * ExperienceScore(q, c)
  }

  /** The normalised total is a weighted mean of the applied sub-scores, so
      it lies between the lowest and the highest of them. */
  lemma TotalBetweenApplied(cos: (Vector, Vector) -> real, q: Query, c: Candidate)
    requires AppliedWeightOf(q, c) > 0.0
    ensures |Applied(cos, q, c)| > 0
    ensures var t := Normalised(SkillsScore(cos, q, c), LocationScore(q, c), ExperienceScore(q, c), AppliedWeightOf(q, c)).total;
            MinOf(Applied(cos, q, c)) <= t <= MaxOf(Applied(cos, q, c))
  {
    NormalisedIsMean(cos, q, c);
    WeightedMeanBetween(Criteria(cos, q, c));
  }

  /** The normalised total is the criteria's weighted mean. */
  lemma NormalisedIsMean(cos: (Vector, Vector) -> real, q: Query, c: Candidate)
    requires AppliedWeightOf(q, c) > 0.0
    ensures AppliedWeight(Criteria(cos, q, c)) > 0.0
    ensures Normalised(SkillsScore(cos, q, c), LocationScore(q, c), ExperienceScore(q, c), AppliedWeightOf(q, c)).total ==
            Contribution(Criteria(cos, q, c)) / AppliedWeight(Criteria(cos, q, c))
  {
    var cs := Criteria(cos, q, c);
    CriteriaSums(cos, q, c);
    var sum, w := Contribution(cs), AppliedWeight(cs);
    assert w == AppliedWeightOf(q, c);
    NormalisedQuotient(SkillsScore(cos, q, c), LocationScore(q, c), ExperienceScore(q, c), w, sum);
  }

  lemma NormalisedQuotient(s: real, l: real, e: real, w: real, sum: real)
    requires w > 0.0 && sum == SkillsWeight * s + LocationWeight * l + ExperienceWeight * e
    ensures Normalised(s, l, e, w).total == sum / w
  {
  }

  /** The weighted sum and the applied weight of a candidate's criteria,
      written out over the reported sub-scores. */
  lemma CriteriaSums(cos: (Vector, Vector) -> real, q: Query, c: Candidate)
    ensures Contribution(Criteria(cos, q, c)) == WeightedSum(cos, q, c)
    ensures AppliedWeight(Criteria(cos, q, c)) == AppliedWeightOf(q, c)
  {
    var s, l, e := SkillsScore(cos, q, c), LocationScore(q, c), ExperienceScore(q, c);
    var a := Criterion(SkillsApplies(q, c), s, SkillsWeight);
    var b := Criterion(LocationApplies(q, c), l, LocationWeight);
    var d := Criterion(ExperienceApplies(q, c), e, ExperienceWeight);
    assert Criteria(cos, q, c) == [a, b, d];
    assert Contribution([a, b, d]) == WeightedSum(cos, q, c) by {
      ThreeWeighted(a, b, d);
    }
    assert AppliedWeight([a, b, d]) == AppliedWeightOf(q, c) by {
      ThreeCriteria(a, b, d);
    }
  }

  /** The total an entry is ranked by. */
  function TotalOf(m: SearchMatch): real {
    m.scores.total
  }

  /** A candidate that is scored and reaches the threshold. */
  predicate Admitted(cos: (Vector, Vector) -> real, q: Query, c: Candidate) {
    Evaluate(cos, q, c).Some? && Evaluate(cos, q, c).value.total >= q.minScore
  }

  /** The `results` list: admitted candidates with their scores, in scan order. */
  function Scan(cos: (Vector, Vector) -> real, q: Query, candidates: seq<Candidate>): (r: seq<SearchMatch>)
    ensures |r| <= |candidates|
    ensures forall m :: m in r ==> m.candidate in candidates && Admitted(cos, q, m.candidate) && Some(m.scores) == Evaluate(cos, q, m.candidate)
    ensures forall c :: c in candidates && Admitted(cos, q, c) ==> SearchMatch(c, Evaluate(cos, q, c).value) in r
  {
    if |candidates| == 0 then []
    else
      var c := candidates[0];
      var rest := Scan(cos, q, candidates[1..]);
      assert candidates == [c] + candidates[1..];
      if Admitted(cos, q, c) then [SearchMatch(c, Evaluate(cos, q, c).value)] + rest else rest
  }

  /** Scanning two lists one after the other gives the two scans one after
      the other: the result keeps the candidates' order. */
  lemma {:induction false} ScanAppend(cos: (Vector, Vector) -> real, q: Query, a: seq<Candidate>, b: seq<Candidate>)
    ensures Scan(cos, q, a + b) == Scan(cos, q, a) + Scan(cos, q, b)
  {
    if |a| == 0 {
      assert a + b == b;
    } else {
      var c, t := a[0], a[1..];
      var entry := if Admitted(cos, q, c) then [SearchMatch(c, Evaluate(cos, q, c).value)] else [];
      calc {
        Scan(cos, q, a + b);
        { HeadOfAppend(a, b); }
        Scan(cos, q, [c] + (t + b));
        { ScanCons(cos, q, c, t + b); }
        entry + Scan(cos, q, t + b);
        { ScanAppend(cos, q, t, b); }
        entry + (Scan(cos, q, t) + Scan(cos, q, b));
        { AppendAssociates(entry, Scan(cos, q, t), Scan(cos, q, b)); }
        (entry + Scan(cos, q, t)) + Scan(cos, q, b);
        { HeadOfAppend(a, b); ScanCons(cos, q, c, t); }
        Scan(cos, q, a) + Scan(cos, q, b);
      }
    }
  }

  lemma ScanCons(cos: (Vector, Vector) -> real, q: Query, c: Candidate, t: seq<Candidate>)
    ensures Scan(cos, q, [c] + t) == (if Admitted(cos, q, c) then [SearchMatch(c, Evaluate(cos, q, c).value)] else []) + Scan(cos, q, t)
  {
    assert ([c] + t)[0] == c && ([c] + t)[1..] == t;
  }

  /** A single candidate is scanned into its own entry when admitted and
      into nothing otherwise. */
  lemma ScanSingle(cos: (Vector, Vector) -> real, q: Query, c: Candidate)
    ensures Scan(cos, q, [c]) == if Admitted(cos, q, c) then [SearchMatch(c, Evaluate(cos, q, c).value)] else []
  {
    assert [c][1..] == [];
  }

  /** `search_candidates`. Every entry is an admitted candidate with its own
      scores; the list is sorted best first, equal totals keep scan order, no
      admitted candidate left out scores above one kept, and exactly as many
      entries remain as `[:limit]` leaves of the admitted list. */
  function SearchCandidates(cos: (Vector, Vector) -> real, q: Query, candidates: seq<Candidate>): (r: seq<SearchMatch>)
    ensures forall m :: m in r ==> m.candidate in candidates && Some(m.scores) == Evaluate(cos, q, m.candidate)
    ensures forall m :: m in r ==> m.scores.total >= q.minScore
    ensures SortedDesc(r, TotalOf)
    ensures multiset(r) <= multiset(Scan(cos, q, candidates))
    ensures forall k :: Ties(r, TotalOf, k) <= Ties(Scan(cos, q, candidates), TotalOf, k)
    ensures forall c, m :: c in candidates && Admitted(cos, q, c) && m in r && SearchMatch(c, Evaluate(cos, q, c).value) !in r ==>
              Evaluate(cos, q, c).value.total <= m.scores.total
    ensures |r| == SliceLength(|Scan(cos, q, candidates)|, q.limit)
    ensures |candidates| == 0 ==> r == []
  {
    var admitted := Scan(cos, q, candidates);
    var r := SelectTop(admitted, TotalOf, q.limit);
    forall m | m in r
      ensures m in admitted
    {
      SelectedFromInput(admitted, TotalOf, q.limit, m);
    }
    forall c, m | c in candidates && Admitted(cos, q, c) && m in r && SearchMatch(c, Evaluate(cos, q, c).value) !in r
      ensures Evaluate(cos, q, c).value.total <= m.scores.total
    {
      SelectedAreBest(admitted, TotalOf, q.limit, m, SearchMatch(c, Evaluate(cos, q, c).value));
    }
    r
  }

  /** With a genuine cosine, every search total lies in [-1, 1]; without the
      skills criterion, in [0, 1]. */
  lemma EvaluateWithin(cos: (Vector, Vector) -> real, q: Query, c: Candidate)
    requires IsCosine(cos)
    requires Evaluate(cos, q, c).Some?
    ensures -1.0 <= Evaluate(cos, q, c).value.total <= 1.0
    ensures !SkillsApplies(q, c) ==> 0.0 <= Evaluate(cos, q, c).value.total <= 1.0
  {
    AppliedWithin(cos, q, c);
    var scores := Applied(cos, q, c);
    assert MinOf(scores) in scores && MaxOf(scores) in scores;
  }

  /** Every applied sub-score lies in [-1, 1], and in [0, 1] when skills are
      not among them. */
  lemma AppliedWithin(cos: (Vector, Vector) -> real, q: Query, c: Candidate)
    requires IsCosine(cos)
    ensures forall x :: x in Applied(cos, q, c) ==> -1.0 <= x <= 1.0
    ensures !SkillsApplies(q, c) ==> forall x :: x in Applied(cos, q, c) ==> 0.0 <= x <= 1.0
  {
    var cs := Criteria(cos, q, c);
    if SkillsApplies(q, c) {
      BestOfBatchWithin(cos, q.skillsVectors.value, c.resumeVector.value);
    }
    forall x | x in Applied(cos, q, c)
      ensures -1.0 <= x <= 1.0 && (!SkillsApplies(q, c) ==> 0.0 <= x)
    {
      var i :| 0 <= i < |cs| && cs[i].applied && cs[i].score == x;
      assert i == 0 || i == 1 || i == 2;
    }
  }

  /** With a single applied criterion, the total is that criterion's
      sub-score: normalising by the applied weight undoes the weighting. */
  lemma SingleCriterionTotal(cos: (Vector, Vector) -> real, q: Query, c: Candidate)
    requires Evaluate(cos, q, c).Some?
    ensures !LocationApplies(q, c) && !ExperienceApplies(q, c) ==> Evaluate(cos, q, c).value.total == Evaluate(cos, q, c).value.skills
    ensures !SkillsApplies(q, c) && !ExperienceApplies(q, c) ==> Evaluate(cos, q, c).value.total == Evaluate(cos, q, c).value.location
    ensures !SkillsApplies(q, c) && !LocationApplies(q, c) ==> Evaluate(cos, q, c).value.total == Evaluate(cos, q, c).value.experience
  {
    var s, l, e := SkillsScore(cos, q, c), LocationScore(q, c), ExperienceScore(q, c);
    assert Evaluate(cos, q, c).value == Normalised(s, l, e, AppliedWeightOf(q, c));
    if !LocationApplies(q, c) && !ExperienceApplies(q, c) {
      assert l == 0.0 && e == 0.0 && AppliedWeightOf(q, c) == SkillsWeight;
      CancelWeight(s, l, e);
    }
    if !SkillsApplies(q, c) && !ExperienceApplies(q, c) {
      assert s == 0.0 && e == 0.0 && AppliedWeightOf(q, c) == LocationWeight;
      CancelWeight(s, l, e);
    }
    if !SkillsApplies(q, c) && !LocationApplies(q, c) {
      assert s == 0.0 && l == 0.0 && AppliedWeightOf(q, c) == ExperienceWeight;
      CancelWeight(s, l, e);
    }
  }

  /** Dividing one weighted sub-score by its own weight gives it back. */
  lemma CancelWeight(s: real, l: real, e: real)
    ensures Normalised(s, 0.0, 0.0, SkillsWeight).total == s
    ensures Normalised(0.0, l, 0.0, LocationWeight).total == l
    ensures Normalised(0.0, 0.0, e, ExperienceWeight).total == e
  {
  }

  /** A required experience of 0 is falsy: the search scores exactly as if no
      experience had been asked for. */
  lemma ZeroRequiredExperienceIgnored(cos: (Vector, Vector) -> real, q: Query, c: Candidate)
    requires q.requiredExperience == Some(0.0)
    ensures Evaluate(cos, q, c) == Evaluate(cos, q.(requiredExperience := None), c)
  {
    var q' := q.(requiredExperience := None);
    assert Criteria(cos, q, c) == Criteria(cos, q', c);
  }

  /** A candidate whose experience column is null still has the experience
      weight applied, with sub-score 0. With skills the only other criterion,
      the total keeps three quarters of the skills score. */
  lemma NullExperienceCountsAsZero(cos: (Vector, Vector) -> real, q: Query, c: Candidate)
    requires PresentNumber(q.requiredExperience)
    requires SkillsApplies(q, c) && !LocationApplies(q, c)
    requires c.totalExperience == Null
    ensures Evaluate(cos, q, c).Some?
    ensures Evaluate(cos, q, c).value.experience == 0.0
    ensures Evaluate(cos, q, c).value.total == 0.75 * Evaluate(cos, q, c).value.skills
  {
    var s := SkillsScore(cos, q, c);
    assert LocationScore(q, c) == 0.0 && ExperienceScore(q, c) == 0.0 && AppliedWeightOf(q, c) == 0.8;
    assert Evaluate(cos, q, c).value == Normalised(s, 0.0, 0.0, 0.8);
    ThreeQuarters(s);
  }

  lemma ThreeQuarters(s: real)
    ensures Normalised(s, 0.0, 0.0, 0.8).total == 0.75 * s
  {
  }

  /** The same candidate with the blank sentinel instead skips the experience
      criterion, so its total is its skills score alone. */
  lemma BlankExperienceSkipped(cos: (Vector, Vector) -> real, q: Query, c: Candidate)
    requires PresentNumber(q.requiredExperience)
    requires SkillsApplies(q, c) && !LocationApplies(q, c)
    requires c.totalExperience == Blank
    ensures Evaluate(cos, q, c).Some?
    ensures Evaluate(cos, q, c).value.total == Evaluate(cos, q, c).value.skills
  {
    var s := SkillsScore(cos, q, c);
    var cs := Criteria(cos, q, c);
    assert cs == [Criterion(true, s, 0.6), Criterion(false, LocationScore(q, c), 0.2), Criterion(false, ExperienceScore(q, c), 0.2)];
    ThreeCriteria(cs[0], cs[1], cs[2]);
    assert AppliedWeight(cs) == 0.6;
    assert Contribution(cs) == s * 0.6;
  }

  /** The histogram of `get_search_summary`. */
  datatype Distribution = Distribution(excellent: nat, good: nat, fair: nat)

  /** `get_search_summary`'s record. */
  datatype Summary = Summary(count: nat, avgScore: real, maxScore: real, minScore: real, distribution: Distribution)

  function Totals(results: seq<SearchMatch>): (r: seq<real>)
    ensures |r| == |results|
    ensures forall i :: 0 <= i < |results| ==> r[i] == results[i].scores.total
  {
    if |results| == 0 then [] else [results[0].scores.total] + Totals(results[1..])
  }

  /** `len([s for s in scores if p(s)])`. */
  function CountWhere(scores: seq<real>, p: real -> bool): (n: nat)
    ensures n <= |scores|
  {
    if |scores| == 0 then 0 else (if p(scores[0]) then 1 else 0) + CountWhere(scores[1..], p)
  }

  predicate Excellent(x: real) { x >= 0.8 }
  predicate Good(x: real) { 0.6 <= x < 0.8 }
  predicate Fair(x: real) { 0.5 <= x < 0.6 }
  predicate Poor(x: real) { x < 0.5 }

  /** The summary: all zeros for no results; otherwise the count, the mean
      of the totals, the largest and the smallest total, and the three
      buckets. The mean lies between the smallest and the largest total, each
      of which some result attains; the buckets count the totals in their
      ranges, so together with the totals below 0.5 they count every result
      once. */
  function Summarize(results: seq<SearchMatch>): (s: Summary)
    ensures |results| == 0 ==> s == Summary(0, 0.0, 0.0, 0.0, Distribution(0, 0, 0))
    ensures s.count == |results|
    ensures |results| > 0 ==> s.avgScore == Mean(Totals(results))
    ensures s.distribution == Distribution(CountWhere(Totals(results), Excellent), CountWhere(Totals(results), Good), CountWhere(Totals(results), Fair))
    ensures s.distribution.excellent + s.distribution.good + s.distribution.fair + CountWhere(Totals(results), Poor) == s.count
    ensures |results| > 0 ==> s.minScore <= s.avgScore <= s.maxScore
    ensures |results| > 0 ==> exists m :: m in results && m.scores.total == s.maxScore
    ensures |results| > 0 ==> exists m :: m in results && m.scores.total == s.minScore
    ensures forall m :: m in results ==> s.minScore <= m.scores.total <= s.maxScore
    ensures s.distribution.excellent + s.distribution.good + s.distribution.fair <= s.count
  {
    if |results| == 0 then Summary(0, 0.0, 0.0, 0.0, Distribution(0, 0, 0))
    else
      var scores := Totals(results);
      MeanBetween(scores);
      var hi, lo := MaxOf(scores), MinOf(scores);
      var i :| 0 <= i < |scores| && scores[i] == hi;
      var j :| 0 <= j < |scores| && scores[j] == lo;
      assert results[i] in results && results[j] in results;
      BucketsPartition(scores);
      Summary(|results|, Mean(scores), hi, lo,
        Distribution(CountWhere(scores, Excellent), CountWhere(scores, Good), CountWhere(scores, Fair)))
  }

  /** The buckets and the totals below 0.5 split the results between them. */
  lemma {:induction false} BucketsPartition(scores: seq<real>)
    ensures CountWhere(scores, Excellent) + CountWhere(scores, Good) + CountWhere(scores, Fair) + CountWhere(scores, Poor) == |scores|
  {
    if |scores| > 0 {
      BucketsPartition(scores[1..]);
    }
  }

  /** No total below a threshold means no result below it is counted. */
  lemma {:induction false} NonePoor(scores: seq<real>)
    requires forall i :: 0 <= i < |scores| ==> scores[i] >= 0.5
    ensures CountWhere(scores, Poor) == 0
  {
    if |scores| > 0 {
      NonePoor(scores[1..]);
    }
  }

  /** When every total is at least 0.5, every result falls in exactly one
      bucket, so the buckets add up to the count. */
  lemma BucketsCoverAdmitted(results: seq<SearchMatch>)
    requires forall m :: m in results ==> m.scores.total >= 0.5
    ensures var s := Summarize(results);
            s.distribution.excellent + s.distribution.good + s.distribution.fair == s.count
  {
    if |results| > 0 {
      var scores := Totals(results);
      assert forall i :: 0 <= i < |results| ==> results[i] in results;
      BucketsPartition(scores);
      NonePoor(scores);
    }
  }

  /** A search with a threshold of at least 0.5 (the default) yields results
      whose buckets add up to the count. */
  lemma SummaryOfSearchBuckets(cos: (Vector, Vector) -> real, q: Query, candidates: seq<Candidate>)
    requires q.minScore >= 0.5
    ensures var s := Summarize(SearchCandidates(cos, q, candidates));
            s.distribution.excellent + s.distribution.good + s.distribution.fair == s.count
  {
    BucketsCoverAdmitted(SearchCandidates(cos, q, candidates));
  }
}

=== FILE: vectors.dfy ===
/** Vector similarity as the engine computes it with numpy: three variants of
    cosine similarity that differ in their guards and in clamping.

    The quotient dot(a, b) / (‖a‖·‖b‖) needs a square root, which is not
    available here, so every operation takes it as a parameter `cos`. The
    guards around it are modelled exactly: an empty list is falsy, a norm is
    falsy exactly when the sum of squares is zero, and `np.dot` on lists of
    different lengths raises. `IsCosine` collects the facts about the true
    quotient that some properties rely on. */
module VectorSimilarity {
  import opened Records
  import opened Numeric

  function Dot(a: Vector, b: Vector): real
    requires |a| == |b|
  {
    if |a| == 0 then 0.0 else a[0] * b[0] + Dot(a[1..], b[1..])
  }

  /** `np.linalg.norm(a)` is truthy. The norm is the square root of the sum
      of squares, so it is non-zero exactly when some component is. */
  predicate NonZero(a: Vector) {
    exists i :: 0 <= i < |a| && a[i] != 0.0
  }

  /** What is known of the quotient dot(a, b) / (‖a‖·‖b‖) for vectors of equal
      length with non-zero norms: it lies in [-1, 1] (Cauchy–Schwarz), it is
      symmetric, it has the sign of the dot product, and a vector is at
      cosine 1 from itself. */
  ghost predicate IsCosine(cos: (Vector, Vector) -> real) {
    && (forall a, b :: |a| == |b| && NonZero(a) && NonZero(b) ==>
          && -1.0 <= cos(a, b) <= 1.0
          && cos(a, b) == cos(b, a)
          && (cos(a, b) < 0.0 <==> Dot(a, b) < 0.0)
          && (cos(a, b) > 0.0 <==> Dot(a, b) > 0.0))
    && (forall a :: NonZero(a) ==> cos(a, a) == 1.0)
  }

  /** Every query vector has the candidate's length, so no `np.dot` raises. */
  predicate SameLength(queries: seq<Vector>, v: Vector) {
    forall q :: q in queries ==> |q| == |v|
  }

  /** The quotient is computed for q only when both norms are truthy. */
  predicate Qualifies(q: Vector, v: Vector) {
    NonZero(q) && NonZero(v)
  }

  /** The `similarities` list of the best-of-batch loop, in query order. */
  function Similarities(cos: (Vector, Vector) -> real, queries: seq<Vector>, v: Vector): (sims: seq<real>)
    ensures forall x :: x in sims ==> exists q :: q in queries && Qualifies(q, v) && x == cos(q, v)
    ensures forall q :: q in queries && Qualifies(q, v) ==> cos(q, v) in sims
  {
    if |queries| == 0 then []
    else
      var rest := Similarities(cos, queries[1..], v);
      assert queries == [queries[0]] + queries[1..];
      if Qualifies(queries[0], v) then [cos(queries[0], v)] + rest else rest
  }

  /** r is the largest quotient over the qualifying query vectors, or 0 when
      none qualifies. */
  ghost predicate IsBestOf(r: real, cos: (Vector, Vector) -> real, queries: seq<Vector>, v: Vector) {
    && (forall q :: q in queries && Qualifies(q, v) ==> cos(q, v) <= r)
    && ((exists q :: q in queries && Qualifies(q, v)) ==> exists q :: q in queries && Qualifies(q, v) && r == cos(q, v))
    && ((forall q :: q in queries ==> !Qualifies(q, v)) ==> r == 0.0)
  }

  /** Search's skills similarity: the best unclamped cosine between the
      candidate's vector and any of the query vectors. An empty list on either
      side scores 0; a length mismatch makes `np.dot` raise, which the source
      catches and scores 0. */
  function BestOfBatch(cos: (Vector, Vector) -> real, queries: seq<Vector>, v: Vector): (r: real)
    ensures |queries| == 0 || |v| == 0 ==> r == 0.0
    ensures !SameLength(queries, v) ==> r == 0.0
    ensures |queries| > 0 && |v| > 0 && SameLength(queries, v) ==> IsBestOf(r, cos, queries, v)
  {
    if |queries| == 0 || |v| == 0 then 0.0
    else if !SameLength(queries, v) then 0.0
    else
      var sims := Similarities(cos, queries, v);
      if |sims| == 0 then 0.0 else MaxOf(sims)
  }

  /** The best-of-batch score is not clamped: when every qualifying query
      points away from the candidate it is negative. */
  lemma BestOfBatchCanBeNegative(cos: (Vector, Vector) -> real, queries: seq<Vector>, v: Vector, k: int)
    requires IsCosine(cos)
    requires |v| > 0 && SameLength(queries, v)
    requires exists q :: q in queries && Qualifies(q, v)
    requires forall q :: q in queries && Qualifies(q, v) ==> Dot(q, v) < 0.0
    ensures BestOfBatch(cos, queries, v) < 0.0
  {
    var r := BestOfBatch(cos, queries, v);
    var q :| q in queries && Qualifies(q, v) && r == cos(q, v);
    assert Dot(q, v) < 0.0;
  }

  /** With a genuine cosine the best-of-batch score lies in [-1, 1]. */
  lemma BestOfBatchWithin(cos: (Vector, Vector) -> real, queries: seq<Vector>, v: Vector)
    requires IsCosine(cos)
    ensures -1.0 <= BestOfBatch(cos, queries, v) <= 1.0
  {
    var r := BestOfBatch(cos, queries, v);
    if |queries| > 0 && |v| > 0 && SameLength(queries, v) && exists q :: q in queries && Qualifies(q, v) {
      var q :| q in queries && Qualifies(q, v) && r == cos(q, v);
      assert |q| == |v|;
    }
  }

  /** Python's `max(0.0, min(1.0, x))`. */
  function Clamp(x: real): (r: real)
    ensures 0.0 <= r <= 1.0
    ensures 0.0 <= x <= 1.0 ==> r == x
    ensures x <= 0.0 ==> r == 0.0
    ensures 1.0 <= x ==> r == 1.0
  {
    var upper := if x < 1.0 then x else 1.0;
    if upper > 0.0 then upper else 0.0
  }

  /** Ranking's skills match: the cosine clamped into [0, 1]. Empty vectors,
      zero norms and a length mismatch (a caught `np.dot` error) score 0. */
  function ClampedCosine(cos: (Vector, Vector) -> real, a: Vector, b: Vector): (r: real)
    ensures 0.0 <= r <= 1.0
    ensures |a| == 0 || |b| == 0 || |a| != |b| || !NonZero(a) || !NonZero(b) ==> r == 0.0
    ensures |a| == |b| && NonZero(a) && NonZero(b) ==>
              && (0.0 <= cos(a, b) <= 1.0 ==> r == cos(a, b))
              && (cos(a, b) < 0.0 ==> r == 0.0)
              && (cos(a, b) > 1.0 ==> r == 1.0)
  {
    if |a| == 0 || |b| == 0 then 0.0
    else if |a| != |b| then 0.0
    else if NonZero(a) && NonZero(b) then Clamp(cos(a, b))
    else 0.0
  }

  /** With a genuine cosine, the ranking's skills match is zero exactly when a
      guard fails or the vectors do not point the same way. */
  lemma ClampedCosineZeroIff(cos: (Vector, Vector) -> real, a: Vector, b: Vector)
    requires IsCosine(cos)
    ensures ClampedCosine(cos, a, b) == 0.0 <==>
              |a| == 0 || |a| != |b| || !NonZero(a) || !NonZero(b) || Dot(a, b) <= 0.0
  {
    if |a| > 0 && |a| == |b| && NonZero(a) && NonZero(b) {
      assert |a| == |b|;
    }
  }

  /** With a genuine cosine, any non-zero vector matches itself fully. */
  lemma ClampedCosineSelf(cos: (Vector, Vector) -> real, v: Vector)
    requires IsCosine(cos)
    requires NonZero(v)
    ensures ClampedCosine(cos, v, v) == 1.0
  {
  }

  /** The candidate-store variant: raw, unclamped quotient. Empty vectors and
      zero norms give 0; a length mismatch raises and is not caught here. */
  function InnerCosine(cos: (Vector, Vector) -> real, a: Vector, b: Vector): (r: Result<real>)
    ensures r.Err? <==> |a| > 0 && |b| > 0 && |a| != |b|
    ensures |a| == 0 || |b| == 0 ==> r == Ok(0.0)
    ensures r.Ok? && !Qualifies(a, b) ==> r == Ok(0.0)
    ensures r.Ok? && |a| > 0 && |b| > 0 && Qualifies(a, b) ==> r == Ok(cos(a, b))
  {
    if |a| == 0 || |b| == 0 then Ok(0.0)
    else if |a| != |b| then Err("shapes not aligned")
    else if NonZero(a) && NonZero(b) then Ok(cos(a, b))
    else Ok(0.0)
  }

  /** The three variants agree: ranking's match is the clamp of the raw
      quotient, and search with a single query vector is the raw quotient. */
  lemma VariantsAgree(cos: (Vector, Vector) -> real, a: Vector, b: Vector)
    requires InnerCosine(cos, a, b).Ok?
    ensures ClampedCosine(cos, a, b) == Clamp(InnerCosine(cos, a, b).value)
    ensures BestOfBatch(cos, [a], b) == InnerCosine(cos, a, b).value
  {
    var r := BestOfBatch(cos, [a], b);
    if |a| > 0 && |b| > 0 && Qualifies(a, b) {
      assert a in [a];
      var q :| q in [a] && Qualifies(q, b) && r == cos(q, b);
    }
  }
}
